=== FILE: README.md ===
# Task board core, modelled in Dafny

This project models the bookkeeping core of a collaborative task board: boards with admin and member roles, ordered lists per board, and tasks with an integer position inside their list. The model covers four parts of the server:

- **The task position engine** (`controllers/taskController.js`), in module `Tasks`, with its proofs in `TaskProofs`.
  - Appending gives a new task the highest position of its list plus one, or 0 when the list is empty.
  - A cross-list move closes the gap in the source list and opens one in the destination list.
  - A same-list reorder shifts the window of siblings between the old and the new position by one.
  - Deleting removes the row and moves nothing else.
  - Listing groups a board's tasks by list.
  - The Task collection is a class `TaskStore` whose `tasks` sequence the handlers update in place. Each Mongo `updateMany` is one reassignment of that sequence (`TaskStore.UpdateMany`, specified by `Shifted`), and `task.save()` replaces one row (`TaskStore.Save`).
  - The main invariant is `Dense`: the positions of one list are exactly 0 .. n-1.
- **Board membership and list rules** (`controllers/boardController.js`), in module `Boards`.
  - A board is a class `Board` whose `members` and `lists` the handlers push to, filter or replace.
  - The pure guards (membership test, admin count, sorted-id comparison) are functions.
  - The board invariant is "at least one admin, one entry per user, one list per id".
- **The access decision** (`middleware/roleMiddleware.js`), in module `Access`. This is a pure function from the route parameter, the boards and the caller to 400, 404, 403, 500 or access granted.
- **One tick of the deadline scan** (`cron.js`), in module `Deadlines`. A method `Tick` loops over the selected tasks and returns the side effects in order: user reminders, persisted notifications and board reminders.

Shared records live in module `Model`:

- the Task, Board and membership documents;
- the outcome `Reply<T>` (a success body or an error `Code`, one per HTTP status 400, 403, 404 and 500);
- the class `Io`, the socket server. `Io` records every emitted event in `sent`. A handler gets `io: Io?`, and `null` stands for an app on which no socket server was set.

Modelling choices:

- **Ids.** Object ids are naturals. Where the source sorts id strings, the model sorts numbers. `SortedIdsMatchIffPermutation` shows that, under the numeric order, the sorted ids match exactly when the ids are a permutation. The lemma is proved only for that order, not for the string order of `.sort()`, but its argument uses nothing beyond the order being total.
- **Time.** Times are integer milliseconds.
- **External inputs.** The database and the clock are parameters:
  - `invitee` is the user the e-mail lookup found;
  - `freshId` is the id Mongo gives a new list, which no list of the board has yet;
  - `now` is the scan time;
  - `failAt` is the index of the first side effect that throws.

Where the intended design and the code disagree, the model follows the code:

- **Delete does not compact.** `deleteTask` leaves a gap in the list, and `DeleteKeepsDenseIffLast` states exactly when.
- **No reminder bookkeeping.** The scan keeps no record of what it already sent, so every tick re-sends: `RemindedAtEveryTickOfTheLastHour`.
- **Partial updates.** A rejected `updateTask` can leave shifted siblings behind, so mutations are not all-or-nothing (see Findings).
- **Destination list unchecked.** A cross-list move does not check that the destination list exists.
- **Unguarded emit.** `addList` and `deleteList` call `io.to` without checking that a socket server is attached. Without one they answer 500 after the list change has been saved, and `Board.AddList` and `Board.DeleteList` state this. `createTask`, `updateTask` and `deleteTask` do check. server.js never attaches a socket server.
- **Reorder bodies must carry creators.** The comment of `updateListsOrder` describes its body as list objects with `_id` and `name`. The list schema requires `createdBy`, so such a body passes the checks and then fails the save with 500 (`IdAndNameBodyFailsToSave`). Only a body that repeats every creator is saved.
- **Task deletion unguarded.** The comment of the delete route (routes/taskRoutes.js:28) promises that only an admin or the task's creator can delete it. The route lets every role through, and `deleteTask` compares neither the caller nor the role, so any member deletes any task of the board (see Findings).
- **Notifications come only from the scan.** No handler in the code creates a notification.

## Model

| member | source | states |
|---|---|---|
| Model.FindMember | middleware/roleMiddleware.js:21-23 | None exactly when no entry belongs to the user; otherwise the first entry of that user |
| Tasks.Bump | controllers/taskController.js:82-85 | definition: one `updateMany` on one record; a task of the filtered list whose position lies in the filter's range has its position changed by the `$inc` amount, any other record is unchanged |
| Tasks.Shifted | controllers/taskController.js:82-85 | definition: the same `updateMany` applied to every record of the collection, index by index |
| Model.Io.Emit | controllers/boardController.js:142-145 | `io.to(room).emit(event)`: exactly the event is appended to what the server has sent |
| Tasks.InRange | controllers/taskController.js:83-113 | definition: the position filters of the `updateMany` calls; above a (`$gt`), at least a (`$gte`), above a up to b (`$gt`, `$lte`), from a below b (`$gte`, `$lt`) |
| Tasks.MaxPosition | controllers/taskController.js:15 | None exactly when the list has no task; otherwise a position held in the list and at least every position in it |
| Tasks.NextPosition | controllers/taskController.js:15-16 | above every position of the list, and exactly one above the highest when the list has a task; 0 for an empty list |
| Tasks.FindTask | controllers/taskController.js:70-73 | the index of the first task with that id on that board, and None exactly when there is none |
| Tasks.OfBoard | controllers/taskController.js:48 | holds exactly the tasks of the board |
| Tasks.OfList | controllers/taskController.js:52-56 | holds exactly the tasks of the list |
| Tasks.DensePositions | controllers/taskController.js:15-16 | a dense list of n tasks takes each position 0 .. n-1 exactly once (pigeonhole) |
| Tasks.DenseCovers | controllers/taskController.js:15-16 | every position 0 .. n-1 of a dense list is held by one of its tasks |
| Tasks.Grouped | controllers/taskController.js:50-55 | definition: the dictionary the `forEach` builds; each task in store order is pushed onto its list's group, which is created when missing |
| Tasks.GroupedByList | controllers/taskController.js:50-55 | the grouping loop gives one group per list that occurs, each group holding exactly that list's tasks in their order |
| Tasks.GroupsCoverBoard | controllers/taskController.js:47-55 | grouping the board's tasks puts every task of the board in its own list's group and nothing else in any group |
| Tasks.Saveable | models/Task.js:15 | definition: the schema accepts a task on save only when its required title is a non-empty string |
| Tasks.EditFields | controllers/taskController.js:121-125 | definition: title, description, deadline and attachment are overwritten exactly when the request defines them; every other field is kept |
| Tasks.IsCrossMove | controllers/taskController.js:80 | definition: the request names a list and it is not the task's own |
| Tasks.IsReorder | controllers/taskController.js:97 | definition: not a cross-list move, and the request names a position other than the task's |
| Tasks.InsertPosition | controllers/taskController.js:89 | definition: the requested position, or 0 when there is none |
| Tasks.MovedRecord | controllers/taskController.js:80-125 | definition: the document `updateTask` saves; a cross-list move takes the destination list and the given position or 0, a reorder takes the new position, and then the fields of the request are applied |
| Tasks.SiblingShifts | controllers/taskController.js:80-119 | definition: the collection after the `updateMany` calls; a cross-list move closes the gap above the old position and opens one at the insert position, a move down shifts the window (old, new] by -1, a move up shifts [new, old) by +1, anything else shifts nothing |
| Tasks.AfterUpdate | controllers/taskController.js:80-127 | definition: the collection after a successful update; the sibling shifts, then the moved record saved over the task's own row |
| Tasks.AfterDelete | controllers/taskController.js:154 | definition: the collection after `deleteOne`; that row is removed and every other row keeps its position |
| Tasks.DeleteReply | controllers/taskController.js:147-155 | 404 exactly when the board holds no task with that id, success otherwise, for every role and caller |
| Tasks.MayDeleteTask | routes/taskRoutes.js:28 | definition: the caller is an admin or the task's creator |
| Tasks.GuardedDeleteReply | routes/taskRoutes.js:28 | 404 exactly when the board holds no such task; success only for a task the caller may delete, and 403 only for one the caller may not |
| Tasks.TaskStore.UpdateMany | controllers/taskController.js:82-85 | the store after `updateMany`: the tasks of the list in the position range move by delta, nothing else changes |
| Tasks.TaskStore.Save | controllers/taskController.js:127 | saving a loaded task replaces its row and no other |
| Tasks.TaskStore.CreateTask | controllers/taskController.js:5-43 | no listId gives 400 and no change; a title the schema rejects gives 500 and no change; otherwise one task is appended with the next position, no assignee, a fresh id, the board and the actor, and one `created` event follows the commit |
| Tasks.TaskStore.GetTasks | controllers/taskController.js:46-62 | one group per list that has tasks on the board; every task of the board lies in the group of its own list, and each group holds only that list's tasks of the board, in store order |
| Tasks.TaskStore.MoveTask | controllers/taskController.js:77-119 | the sibling shifts of an update: the store becomes exactly the shifted store, ids stay unique and below the next fresh id, and the returned task keeps its id and, once edited, is the moved record |
| Tasks.TaskStore.UpdateTask | controllers/taskController.js:65-141 | not found on the board gives 404 and no change; otherwise the siblings are shifted and the moved and edited record is saved, then one `updated` event is sent; a record that fails validation gives 500 with the shifts already committed |
| Tasks.TaskStore.DeleteTask | controllers/taskController.js:145-168 | the answer is `DeleteReply`, whatever the caller's role and id; not found gives 404 and no change; otherwise exactly that row goes, every other task stays as it was, and the `deleted` event carries only the id |
| Tasks.TaskStore.GuardedDeleteTask | routes/taskRoutes.js:28-34 | corrected delete: the answer is `GuardedDeleteReply`; a refusal changes nothing and sends nothing; a success removes exactly that row and sends the `deleted` event |
| TaskProofs.AppendKeepsDense | controllers/taskController.js:15-27 | appending to a dense list of n tasks gives position n; that list and every other dense list stay dense |
| TaskProofs.NextPositionOfDense | controllers/taskController.js:15-16 | on a dense list of n tasks the position a new task gets is n |
| TaskProofs.ShiftsSkipMovedTask | controllers/taskController.js:80-119 | none of the `updateMany` filters matches the moved task itself; ids and list ids are unchanged |
| TaskProofs.UpdateTouchesOnlyItsLists | controllers/taskController.js:80-96 | tasks outside the source and destination lists are untouched |
| TaskProofs.NoMoveKeepsPositions | controllers/taskController.js:97 | with no list change and no new position, no list id or position changes; only the given fields of the task change |
| TaskProofs.EmptyEditChangesNothing | controllers/taskController.js:122-125 | an update that defines no field changes nothing |
| TaskProofs.CloseGapKeepsDense | controllers/taskController.js:82-85 | moving a task out of a dense list and moving the tasks above it down by one keeps the list dense, one task shorter |
| TaskProofs.OpenGapKeepsDense | controllers/taskController.js:89-96 | moving a task into a dense list at 0 .. n and moving the tasks at or above that position up by one keeps the list dense, one task longer |
| TaskProofs.CrossMoveKeepsDense | controllers/taskController.js:80-96 | with both lists dense and 0 <= insertPosition <= n, both stay dense; the counts change by -1 and +1; the task takes the destination list and insertPosition |
| TaskProofs.WindowShiftKeepsDense | controllers/taskController.js:99-118 | shifting the window between the old and the new position by one keeps a dense list dense and the same size |
| TaskProofs.ReorderKeepsDense | controllers/taskController.js:97-119 | a reorder to 0 .. n-1 in a dense list keeps it dense, keeps its size and its set of positions, and puts the task at the new position |
| TaskProofs.ReorderKeepsRelativeOrder | controllers/taskController.js:97-119 | the other tasks of the list keep their relative order |
| TaskProofs.UpdateKeepsAllDense | controllers/taskController.js:80-127 | when every list is dense and the position is in range, every list is dense after a successful update |
| TaskProofs.DeleteKeepsDenseIffLast | controllers/taskController.js:154 | a delete shortens the list by one, and the list stays dense exactly when the deleted task held the last position |
| TaskProofs.RemovingLastKeepsDense | controllers/taskController.js:154 | removing the task at the last position of a dense list keeps it dense |
| TaskProofs.RemovingBeforeLastLeavesGap | controllers/taskController.js:154 | removing a task below the last position of a dense list leaves a list that is not dense |
| TaskProofs.DeleteLeavesGap | controllers/taskController.js:147-154 | deleting the first of two tasks leaves a list that is not dense |
| TaskProofs.DeleteElsewhereKeepsDense | controllers/taskController.js:154 | deleting a task of another list keeps a dense list dense |
| TaskProofs.MemberDeletesOthersTask | controllers/taskController.js:145-155 | a plain member deletes a task someone else created, which the admin-or-creator rule refuses with 403 |
| TaskProofs.MemberDeletesOthersTaskExample | controllers/taskController.js:145-155 | the concrete case: member 9 deletes the task member 5 created |
| TaskProofs.GuardedDeleteIffAllowed | routes/taskRoutes.js:28-34 | with one row per id, the guarded delete succeeds exactly when the board has the task and the caller may delete it, and it answers as the unguarded delete whenever it does not refuse with 403 |
| TaskProofs.FailedSaveTearsList | controllers/taskController.js:97-127 | a reorder whose title the schema rejects commits the shift and leaves two tasks at one position |
| TaskProofs.CheckedUpdate | controllers/taskController.js:80-127 | corrected update: rejected exactly when the saved record would fail validation; on success the store keeps its size and the task's row holds the saved record |
| TaskProofs.CheckedUpdateKeepsAllDense | controllers/taskController.js:80-127 | with the check first, an accepted request keeps every list dense and a rejected one leaves the store as it was |
| Boards.IsMember | controllers/boardController.js:43-45 | definition: some entry of the members belongs to the user |
| Boards.AdminCount | controllers/boardController.js:91-93 | definition: the number of entries with role admin |
| Boards.MayCreateList | controllers/boardController.js:128-129 | definition: the role is admin or member; this holds for every role, as the schema's enum (models/Board.js:18) allows no other |
| Boards.UniqueListIds | controllers/boardController.js:134 | definition: no two lists of the board share an id, as every pushed list gets a fresh ObjectId |
| Boards.Without | controllers/boardController.js:101-103 | holds exactly the entries of other users |
| Boards.ListIds | controllers/boardController.js:201 | the ids of the lists, index by index |
| Boards.FindList | controllers/boardController.js:159 | None exactly when no list has the id; otherwise a list of the board with that id |
| Boards.WithoutList | controllers/boardController.js:173 | holds exactly the lists with another id |
| Boards.InsertSorted | controllers/boardController.js:201-202 | inserting into a sorted sequence keeps it sorted and adds exactly the element to its multiset |
| Boards.SortIds | controllers/boardController.js:201-202 | sorted, and a permutation of the input |
| Boards.ItemIds | controllers/boardController.js:202 | the ids of the body's list objects, index by index |
| Boards.ItemsSaveable | models/Board.js:5-9 | definition: every list object of the body names its creator, which the list schema requires on save |
| Boards.AsLists | controllers/boardController.js:207 | the subdocuments a saveable body becomes keep its ids in order, and each keeps its name and creator |
| Boards.ListOrderAccepted | controllers/boardController.js:196-205 | definition: the body is an array, has as many lists as the board, and its sorted ids equal the board's sorted ids |
| Boards.RemovalAllowed | controllers/boardController.js:83-99 | definition: the user has an entry, and that first entry is not an admin's while at most one admin is left |
| Boards.ListDeletionAllowed | controllers/boardController.js:159-171 | definition: the list exists, and the caller is an admin or the list's creator |
| Boards.Board.constructor | controllers/boardController.js:8-11 | a new board has exactly one member, the creator, as admin, and no lists |
| Boards.Board.InviteUser | controllers/boardController.js:38-50 | an unknown user gives 404 and an existing member 400, both with no change; otherwise exactly one `member` entry is appended; the board invariant is kept |
| Boards.Board.RemoveUser | controllers/boardController.js:83-104 | a non-member gives 404; removing an admin when at most one admin is left gives 400; success exactly when allowed, and then the user's entries are dropped; the board invariant is kept |
| Boards.Board.AddList | controllers/boardController.js:128-146 | given a fresh list id; a role outside admin and member would give 403, a branch no input reaches because the role enum has only those two values, in the model as in the source (models/Board.js:18); otherwise one list created by the actor is appended and one `created` list event is sent; with no socket server the change stays and the answer is 500; the board invariant is kept |
| Boards.Board.DeleteList | controllers/boardController.js:159-183 | an unknown list gives 404; a caller who is neither admin nor the list's creator gets 403; otherwise the list is removed and one `deleted` list event is sent; with no socket server the answer is 500 after the change; the board invariant is kept |
| Boards.Board.UpdateListsOrder | controllers/boardController.js:190-212 | 400 and no change unless the body passes the array, length and sorted-id checks; then 500 and no change when a list of the body lacks its required creator; otherwise the lists are replaced by the body's lists, the id multiset is unchanged and the board invariant is kept |
| Boards.WithoutListKeepsUnique | controllers/boardController.js:173 | filtering a list out keeps the remaining list ids unique |
| Boards.PermutationKeepsUniqueListIds | controllers/boardController.js:196-207 | lists whose ids are a permutation of unique ids have unique ids, so an accepted reorder keeps them unique |
| Boards.AppendKeepsAdmins | controllers/boardController.js:43-49 | appending an entry for a non-member keeps the admins and one entry per user |
| Boards.AdminCountWithout | controllers/boardController.js:91-103 | filtering a user out loses exactly that user's admin entries |
| Boards.RemoveKeepsAnAdmin | controllers/boardController.js:90-103 | a removal the last-admin guard lets through leaves at least one admin |
| Boards.WithoutKeepsUnique | controllers/boardController.js:101-103 | filtering keeps one entry per user |
| Boards.RemoveKeepsOthersInOrder | controllers/boardController.js:101-103 | removing the user of one entry leaves all other entries in their order |
| Boards.DeleteListKeepsOthersInOrder | controllers/boardController.js:173 | with distinct ids, deleting a list leaves all other lists in their order |
| Boards.SortedUnique | controllers/boardController.js:201-203 | two sorted sequences with the same elements are equal |
| Boards.SortedIdsMatchIffPermutation | controllers/boardController.js:201-203 | the sorted ids are equal exactly when the id sequences are permutations of each other |
| Boards.ListOrderAcceptedIffPermutation | controllers/boardController.js:196-205 | a new order is accepted exactly when it is an array whose ids are a permutation of the current ids |
| Boards.IdAndNameBodyFailsToSave | controllers/boardController.js:193-211 | a body of list objects holding only `_id` and `name` passes every check and then fails the save |
| Access.RequireBoardRole | middleware/roleMiddleware.js:7-46 | in this order: a missing id gives 400, a malformed one 500, an unknown board 404, no entry or a role outside `allowedRoles` 403; when access is granted, the caller's own first entry is attached and its role is allowed, so the default empty `allowedRoles` lets nobody through |
| Access.GrantedIffAllowedRole | middleware/roleMiddleware.js:21-36 | with one entry per user, access is granted exactly when the caller holds an entry with an allowed role |
| Access.ValidBoardGrantsAllowedRoles | middleware/roleMiddleware.js:21-36 | on a board the board handlers keep (one entry per user), access is granted exactly when the caller holds an entry with an allowed role |
| Access.FirstEntryDecides | middleware/roleMiddleware.js:21-23 | with duplicate entries only the first counts: a later admin entry does not help |
| Deadlines.InWindow | cron.js:13-15 | definition: the task has a deadline, at or after now and at or before now plus one hour |
| Deadlines.MessageOf | cron.js:19-21 | definition: the reminder text, made of the task's title and deadline |
| Deadlines.NotificationOf | cron.js:34-40 | definition: the notification document; the assignee, board, task id, title and message |
| Deadlines.TaskActions | cron.js:17-49 | definition: the side effects for one task, in order; with an assignee a user reminder and a persisted notification, then always a board reminder, each carrying the task id, title, deadline, board and message |
| Deadlines.ActionsOf | cron.js:17-50 | definition: the side effects of the `for` loop over the given tasks when nothing throws; those of each task in turn, in order |
| Deadlines.TickActions | cron.js:13-50 | definition: the side effects of a whole tick when nothing throws; those of every selected task, in the query's order |
| Deadlines.Selected | cron.js:13-15 | holds exactly the tasks with now <= deadline <= now + 3600000 ms, both ends inclusive |
| Deadlines.Cut | cron.js:51-53 | what happens when one side effect throws: a prefix of the full tick, exactly as long as the failing index |
| Deadlines.RemindOne | cron.js:17-49 | the loop body: the user reminder and the notification when there is an assignee, then the board reminder; it stops at the side effect that throws |
| Deadlines.Tick | cron.js:7-54 | a tick sends the side effects of the uninterrupted scan up to the first one that throws, and none after it |
| Deadlines.TaskActionsSend | cron.js:23-49 | one task gives one board reminder, and one user reminder and one notification when it has an assignee |
| Deadlines.ActionsOfSends | cron.js:17-50 | over the selected tasks: one board reminder per task and one user reminder and notification per assigned task, in order |
| Deadlines.TickSends | cron.js:13-50 | a tick reminds the board of exactly the selected tasks and the assignees of exactly the selected assigned tasks, with one notification each that carries the assignee, board, task id and title |
| Deadlines.RemindedAtEveryTickOfTheLastHour | cron.js:7-50 | the tick keeps no state: every tick of the hour before a deadline reminds that task again |
| Deadlines.OutsideWindowNotReminded | cron.js:13-15 | a task with no deadline, or a deadline outside the window, gets no reminder |
| Deadlines.ShippedTickSendsNothing | cron.js:4 | when the first side effect throws, a tick sends and records nothing, even when a task is due within the hour |
| Deadlines.FailureAbandonsTheRest | cron.js:11-53 | a failure at side effect n keeps exactly the first n side effects, and fewer than the full tick |

## Left out

- Concurrency and atomicity. Each handler is one sequential step. The `updateMany` calls of one request and other requests do not interleave in the model.
- Persistence, async calls and the response plumbing. Only the outcome code and the response body are modelled, and the order of a response relative to an emit is not.
- The invitation e-mail of `inviteUser` (controllers/boardController.js:53-68) and utils/sendMail.js are not modelled. A mail failure answers 500 after the invitation is saved, and that is not modelled either.
- Socket transport is not modelled: room joins, the client relay in socket.js, and delivery. Emits are records in `Io.sent`.
- Authentication: controllers/authController.js and middleware/authMiddleware.js are not part of this model. The caller's id is a parameter.
- Wiring in server.js and routes/*.js. `updateListsOrder` is modelled although no route reaches it. The board routes put `addList` and `deleteList` behind the admin-only middleware. That admin-only gate is not composed with the handlers, which are modelled on their own terms.
- `completeTask` is imported by routes/taskRoutes.js but not defined by the task controller, so there is no completion logic to model. The completion fields of the Task schema are left out of `Task`.
- routes/notificationRoutes.js is a database sort-and-limit query.
- Tasks.TaskStore.GetTasks: the result is a `map`, so the insertion order of the keys of `grouped`, which fixes the key order of the JSON response, is not modelled. The order of the tasks inside each group is.
- `createBoard`'s schema check of a missing board name is not modelled, and neither are `getBoards` and `deleteBoard`. They carry no board-membership or list-order rule.
- The formatting of the time of day in the reminder text and the cron schedule are not modelled. The message is the title and the deadline.
- A malformed task id, list id or user id in a request (Mongo cast errors, 500) is not modelled. Only the board id parameter of the access decision models it. Non-numeric positions and `null` field values are not modelled either: the request datatypes only express defined and undefined fields.
- Dangling member references: `populate` can leave `m.user` null when the user was deleted. The middleware and `inviteUser` skip such entries, and `removeUser` would throw on them. This is not modelled; every membership entry names a user.
- Tasks.TaskStore.UpdateTask: the destination list of a cross-list move is not checked against the board's lists. The code does not check it either.
- Boards.Board.UpdateListsOrder: it ensures only that the ids are permuted. It replaces the lists by the body's lists, so names and creators come from the request, as the code does. Other field values the schema would reject on cast (a malformed creator id) are not modelled, only a missing creator.
- Boards.Board.DeleteList: deleting a list does not delete its tasks, in the model as in the code.
- Deadlines.Tick: the populated assignee is an id. An assignee whose user was deleted comes back as null from `populate`, and that case is not modelled.

## Findings

| source | as written | input that shows it | evidently intended | confidence | as-written member | corrected member |
|---|---|---|---|---|---|---|
| controllers/taskController.js:80-127 | the sibling `updateMany` shifts run before `task.save()`, which validates the document; when the save throws, the handler answers 500 but the shifts stay committed | a dense list of two tasks at 0 and 1; update the first with `position: 1` and `title: ""` | a rejected update changes nothing, so the record is validated before any sibling moves | medium; not executed | TaskProofs.FailedSaveTearsList | TaskProofs.CheckedUpdate |
| routes/taskRoutes.js:28-34 | the delete route admits both roles and `deleteTask` (controllers/taskController.js:145-155) never checks the caller against the task's creator | a task created by user 5; user 9, a plain member of the board, deletes it | only an admin or the task's creator deletes a task, as the route's comment says; anyone else gets 403 | high; not executed | TaskProofs.MemberDeletesOthersTask | TaskProofs.GuardedDeleteIffAllowed |
| cron.js:4 | the scan destructures `emitToUser` and `emitToBoard` from socket.js, which exports only `setupSocket` (socket.js:32); the first emit of a tick throws and the error is only logged | any tick with one task whose deadline lies within the coming hour | every selected task is reminded and its notification recorded | high; not executed | Deadlines.ShippedTickSendsNothing | Deadlines.TickSends |

In the model of the second finding, the shipped tick is `Tick(tasks, now, Some(0))`: the first side effect throws. The intended tick is `Tick(tasks, now, None)`, whose sends `TickActions` are characterized by `TickSends` and the lemmas after it.

=== FILE: access.dfy ===
/** The board access decision of middleware/roleMiddleware.js: which requests
    reach a board handler, and with which board and membership attached. */
module Access {
  import opened Model
  import Boards

  /** The `:id` route parameter: absent, not a well-formed ObjectId (the
      lookup then throws), or the id of a board. */
  datatype BoardParam = Missing | Malformed | Given(id: Id)

  /** The decision: an error status, or the board and the caller's membership
      entry the handler then reads from the request. */
  datatype Access = Denied(code: Code) | Granted(board: BoardDoc, membership: Membership)

  /** `requireBoardRole(allowed)` applied to a request of `caller` for the board
      named by `param`, over the boards `boards` of the database. */
  function RequireBoardRole(allowed: seq<Role>, param: BoardParam, boards: map<Id, BoardDoc>, caller: Id): (r: Access)
    // the checks, in their order
    ensures param.Missing? <==> r == Denied(BadRequest)
    ensures param.Malformed? <==> r == Denied(ServerError)
    ensures r == Denied(NotFound) <==> param.Given? && param.id !in boards
    ensures r == Denied(Forbidden) <==>
      && param.Given? && param.id in boards
      && (|| (forall k :: 0 <= k < |boards[param.id].members| ==> boards[param.id].members[k].user != caller)
          || FindMember(boards[param.id].members, caller).value.role !in allowed)
    // what a handler behind the middleware is given
    ensures r.Granted? ==>
      && param.Given? && param.id in boards && r.board == boards[param.id]
      && r.membership.user == caller && r.membership in r.board.members
      && r.membership.role in allowed
    ensures r.Granted? ==> exists k :: 0 <= k < |r.board.members| && r.board.members[k] == r.membership
                                       && forall j :: 0 <= j < k ==> r.board.members[j].user != caller
  {
    match param
    case Missing => Denied(BadRequest)
    case Malformed => Denied(ServerError)
    case Given(id) =>
      if id !in boards then Denied(NotFound)
      else
        var board := boards[id];
        match FindMember(board.members, caller)
        case None => Denied(Forbidden)
        case Some(m) =>
          if m.role !in allowed then Denied(Forbidden)
          else Granted(board, m)
  }

  /** The caller holds an entry of the board with one of the allowed roles. */
  ghost predicate HoldsAllowedRole(board: BoardDoc, caller: Id, allowed: seq<Role>) {
    exists k :: 0 <= k < |board.members| && board.members[k].user == caller && board.members[k].role in allowed
  }

  /** Without duplicate entries, access is granted exactly to a member holding an
      allowed role: the first entry is then the only one. */
  lemma GrantedIffAllowedRole(allowed: seq<Role>, id: Id, boards: map<Id, BoardDoc>, caller: Id)
    requires id in boards
    requires forall j, k :: 0 <= j < k < |boards[id].members| ==> boards[id].members[j].user != boards[id].members[k].user
    ensures RequireBoardRole(allowed, Given(id), boards, caller).Granted? <==> HoldsAllowedRole(boards[id], caller, allowed)
  {
    var ms := boards[id].members;
    if HoldsAllowedRole(boards[id], caller, allowed) {
      var k :| 0 <= k < |ms| && ms[k].user == caller && ms[k].role in allowed;
      var m := FindMember(ms, caller);
      var j :| 0 <= j < |ms| && ms[j] == m.value && ms[j].user == caller;
      assert j == k;
    }
  }

  /** A board kept by the board handlers has one entry per user, so on it access is
      granted exactly to a member holding an allowed role. */
  lemma ValidBoardGrantsAllowedRoles(b: Boards.Board, allowed: seq<Role>, caller: Id)
    requires b.Valid()
    ensures RequireBoardRole(allowed, Given(b.id), map[b.id := b.Doc()], caller).Granted?
            <==> HoldsAllowedRole(b.Doc(), caller, allowed)
  {
    GrantedIffAllowedRole(allowed, b.id, map[b.id := b.Doc()], caller);
  }

  /** With duplicate entries only the first one counts: a later admin entry does
      not help a caller whose first entry is a plain member. */
  lemma FirstEntryDecides()
    ensures var board := BoardDoc(1, "b", [Membership(5, Member), Membership(5, Admin)], []);
            && HoldsAllowedRole(board, 5, [Admin])
            && RequireBoardRole([Admin], Given(1), map[1 := board], 5) == Denied(Forbidden)
  {
    var board := BoardDoc(1, "b", [Membership(5, Member), Membership(5, Admin)], []);
    assert board.members[1].user == 5 && board.members[1].role in [Admin];
  }
}

=== FILE: boards.dfy ===
/** Board membership and list order, as controllers/boardController.js keeps
    them: a board starts with its creator as sole admin, admins invite and
    remove members (never the last admin), members of either role append
    lists, the creator of a list or an admin deletes it, and a reorder is
    accepted only when it is a permutation of the current lists. */
module Boards {
  import opened Model

  // ---------------------------------------------------------------------
  // Guards on the membership sequence
  // ---------------------------------------------------------------------

  /** `members.some(m => m.user === u)`. */
  predicate IsMember(ms: seq<Membership>, u: Id) {
    exists k :: 0 <= k < |ms| && ms[k].user == u
  }

  /** `members.filter(m => m.role === "admin").length`. */
  function AdminCount(ms: seq<Membership>): nat {
    if ms == [] then 0 else (if ms[0].role == Admin then 1 else 0) + AdminCount(ms[1..])
  }

  /** The admin entries of user `u`. */
  function AdminEntriesOf(ms: seq<Membership>, u: Id): nat {
    if ms == [] then 0
    else (if ms[0].user == u && ms[0].role == Admin then 1 else 0) + AdminEntriesOf(ms[1..], u)
  }

  /** `members.filter(m => m.user !== u)`. */
  function Without(ms: seq<Membership>, u: Id): (r: seq<Membership>)
    ensures forall m :: m in r <==> m in ms && m.user != u
    ensures |r| <= |ms|
  {
    if ms == [] then []
    else (if ms[0].user != u then [ms[0]] else []) + Without(ms[1..], u)
  }

  /** No user holds two membership entries. */
  predicate UniqueUsers(ms: seq<Membership>) {
    forall j, k :: 0 <= j < k < |ms| ==> ms[j].user != ms[k].user
  }

  /** Every role passes the `["admin", "member"].includes(role)` guard of `addList`. */
  predicate MayCreateList(role: Role) {
    role == Admin || role == Member
  }

  // ---------------------------------------------------------------------
  // Guards on the list sequence
  // ---------------------------------------------------------------------

  /** `lists.map(l => l._id)`. */
  function ListIds(ls: seq<List>): (r: seq<Id>)
    ensures |r| == |ls| && forall k :: 0 <= k < |ls| ==> r[k] == ls[k].id
  {
    if ls == [] then [] else [ls[0].id] + ListIds(ls[1..])
  }

  /** A list object of an `updateListsOrder` body. The client chooses its fields:
      the schema's required `createdBy` may be missing. */
  datatype ListItem = ListItem(id: Id, name: Option<string>, createdBy: Option<Id>)

  /** `lists.map(l => l._id)` on the request body. */
  function ItemIds(items: seq<ListItem>): (r: seq<Id>)
    ensures |r| == |items| && forall k :: 0 <= k < |items| ==> r[k] == items[k].id
  {
    if items == [] then [] else [items[0].id] + ItemIds(items[1..])
  }

  /** The list schema's `createdBy: { required: true }`: `board.save()` rejects the
      body's lists unless every one of them names its creator. */
  predicate ItemsSaveable(items: seq<ListItem>) {
    forall k :: 0 <= k < |items| ==> items[k].createdBy.Some?
  }

  /** The list subdocuments `board.lists = lists` casts a saveable body into. */
  function AsLists(items: seq<ListItem>): (r: seq<List>)
    requires ItemsSaveable(items)
    ensures ListIds(r) == ItemIds(items)
    ensures forall k :: 0 <= k < |r| ==> r[k].name == items[k].name && Some(r[k].createdBy) == items[k].createdBy
  {
    var r := seq(|items|, k requires 0 <= k < |items| => List(items[k].id, items[k].name, items[k].createdBy.value));
    assert ListIds(r) == ItemIds(items);
    r
  }

  /** `lists.id(id)`: the list with that id. */
  function FindList(ls: seq<List>, id: Id): (r: Option<List>)
    ensures r.None? <==> forall k :: 0 <= k < |ls| ==> ls[k].id != id
    ensures r.Some? ==> r.value in ls && r.value.id == id
  {
    if ls == [] then None
    else if ls[0].id == id then Some(ls[0])
    else FindList(ls[1..], id)
  }

  /** `lists.filter(l => l._id !== id)`. */
  function WithoutList(ls: seq<List>, id: Id): (r: seq<List>)
    ensures forall x :: x in r <==> x in ls && x.id != id
  {
    if ls == [] then []
    else (if ls[0].id != id then [ls[0]] else []) + WithoutList(ls[1..], id)
  }

  /** No two lists share an id: Mongo gives every list subdocument a fresh ObjectId. */
  predicate UniqueListIds(ls: seq<List>) {
    forall j, k :: 0 <= j < k < |ls| ==> ls[j].id != ls[k].id
  }

  predicate SortedIds(s: seq<Id>) {
    forall j, k :: 0 <= j < k < |s| ==> s[j] <= s[k]
  }

  /** Insert `x` before the first element it does not exceed. */
  function Insert(x: Id, s: seq<Id>): seq<Id> {
    if s == [] then [x]
    else if x <= s[0] then [x] + s
    else [s[0]] + Insert(x, s[1..])
  }

  /** Inserting into a sorted sequence keeps it sorted and adds exactly `x`. */
  lemma {:induction false} InsertSorted(x: Id, s: seq<Id>)
    requires SortedIds(s)
    ensures SortedIds(Insert(x, s)) && multiset(Insert(x, s)) == multiset(s) + multiset{x}
  {
    if s == [] {
    } else if x <= s[0] {
      SortedTail(s);
      SortedCons(x, s);
    } else {
      SortedTail(s);
      InsertSorted(x, s[1..]);
      assert s == [s[0]] + s[1..];
      InsertBehindHead(x, s[0], s[1..], Insert(x, s[1..]));
      assert Insert(x, s) == [s[0]] + Insert(x, s[1..]);
    }
  }

  /** The step of `Insert` that keeps the head: `rest` is `x` inserted into `t`. */
  lemma InsertBehindHead(x: Id, h: Id, t: seq<Id>, rest: seq<Id>)
    requires h < x && forall y :: y in t ==> h <= y
    requires SortedIds(rest) && multiset(rest) == multiset(t) + multiset{x}
    ensures SortedIds([h] + rest) && multiset([h] + rest) == multiset([h] + t) + multiset{x}
  {
    forall y | y in rest ensures h <= y {
      assert y in multiset(t) + multiset{x};
      if y != x {
        assert y in multiset(t);
        assert y in t;
      }
    }
    SortedCons(h, rest);
  }

  /** A head no larger than any element of a sorted tail keeps it sorted. */
  lemma SortedCons(h: Id, t: seq<Id>)
    requires SortedIds(t) && forall y :: y in t ==> h <= y
    ensures SortedIds([h] + t)
  {
    forall j, k | 0 <= j < k < |t| + 1 ensures ([h] + t)[j] <= ([h] + t)[k] {
      if j == 0 { assert ([h] + t)[k] == t[k - 1]; assert t[k - 1] in t; }
      else { assert ([h] + t)[j] == t[j - 1] && ([h] + t)[k] == t[k - 1]; }
    }
  }

  /** `ids.sort()`. */
  function SortIds(s: seq<Id>): (r: seq<Id>)
    ensures SortedIds(r) && multiset(r) == multiset(s)
  {
    if s == [] then []
    else
      assert s == s[..|s| - 1] + [s[|s| - 1]];
      InsertSorted(s[|s| - 1], SortIds(s[..|s| - 1]));
      Insert(s[|s| - 1], SortIds(s[..|s| - 1]))
  }

  /** The validation of `updateListsOrder`: an array of the same length whose sorted ids
      equal the current sorted ids. `None` is a body that is not an array. */
  predicate ListOrderAccepted(current: seq<List>, given: Option<seq<ListItem>>) {
    && given.Some?
    && |given.value| == |current|
    && SortIds(ListIds(current)) == SortIds(ItemIds(given.value))
  }

  // ---------------------------------------------------------------------
  // The board document, updated in place by the handlers
  // ---------------------------------------------------------------------

  class Board {
    const id: Id
    var name: string
    var members: seq<Membership>
    var lists: seq<List>

    /** The board invariant: at least one admin, one entry per user, one list per id. */
    ghost predicate Valid()
      reads this
    {
      AdminCount(members) >= 1 && UniqueUsers(members) && UniqueListIds(lists)
    }

    /** The board document as the role middleware loads it. */
    function Doc(): BoardDoc
      reads this
    {
      BoardDoc(id, name, members, lists)
    }

    /** `createBoard`: the creator is the sole member, as admin. */
    constructor (id: Id, name: string, creator: Id)
      ensures this.id == id && this.name == name
      ensures members == [Membership(creator, Admin)] && lists == []
      ensures Valid() && AdminCount(members) == 1
    {
      this.id := id;
      this.name := name;
      members := [Membership(creator, Admin)];
      lists := [];
    }

    /** `inviteUser`: `invitee` is the user found by the invited e-mail address, if any. */
    method InviteUser(invitee: Option<Id>) returns (r: Reply<()>)
      modifies this
      ensures lists == old(lists) && name == old(name)
      ensures invitee.None? ==> r == Fail(NotFound) && members == old(members)
      ensures invitee.Some? && IsMember(old(members), invitee.value) ==>
        r == Fail(BadRequest) && members == old(members)
      ensures invitee.Some? && !IsMember(old(members), invitee.value) ==>
        r == Done(()) && members == old(members) + [Membership(invitee.value, Member)]
      ensures old(Valid()) ==> Valid()
    {
      if invitee.None? {
        return Fail(NotFound);
      }
      var user := invitee.value;
      if IsMember(members, user) {
        return Fail(BadRequest);
      }
      members := members + [Membership(user, Member)];
      r := Done(());
      AppendKeepsAdmins(old(members), Membership(user, Member));
    }

    /** `removeUser`: drop every entry of `user`, unless that takes away the last admin. */
    method RemoveUser(user: Id) returns (r: Reply<()>)
      modifies this
      ensures lists == old(lists) && name == old(name)
      ensures FindMember(old(members), user).None? ==> r == Fail(NotFound) && members == old(members)
      ensures FindMember(old(members), user).Some? && FindMember(old(members), user).value.role == Admin
              && AdminCount(old(members)) <= 1 ==>
        r == Fail(BadRequest) && members == old(members)
      ensures r.Done? <==> RemovalAllowed(old(members), user)
      ensures r.Done? ==> members == Without(old(members), user)
      ensures old(Valid()) ==> Valid()
    {
      var memberToRemove := FindMember(members, user);
      if memberToRemove.None? {
        return Fail(NotFound);
      }
      if memberToRemove.value.role == Admin {
        var adminsCount := AdminCount(members);
        if adminsCount <= 1 {
          return Fail(BadRequest);
        }
      }
      members := Without(members, user);
      r := Done(());
      if old(Valid()) {
        RemoveKeepsAnAdmin(old(members), user);
        WithoutKeepsUnique(old(members), user);
      }
    }

    /** `addList`: append a list created by `actor`; `freshId` is the id Mongo gives it.
        Without a socket server the unguarded `io.to` throws after the save. */
    method AddList(role: Role, actor: Id, freshId: Id, listName: Option<string>, io: Io?)
      returns (r: Reply<List>)
      requires FindList(lists, freshId).None?
      modifies this, io
      ensures old(Valid()) ==> Valid()
      ensures members == old(members) && name == old(name)
      ensures !MayCreateList(role) ==> r == Fail(Forbidden) && lists == old(lists)
      ensures MayCreateList(role) ==> lists == old(lists) + [List(freshId, listName, actor)]
      ensures MayCreateList(role) && io == null ==> r == Fail(ServerError)
      ensures MayCreateList(role) && io != null ==>
        r == Done(List(freshId, listName, actor))
        && io.sent == old(io.sent) + [ListCreated(id, List(freshId, listName, actor))]
      ensures r.Fail? && io != null ==> io.sent == old(io.sent)
    {
      if !MayCreateList(role) {
        return Fail(Forbidden);
      }
      lists := lists + [List(freshId, listName, actor)];
      var newList := lists[|lists| - 1];
      if io == null {
        return Fail(ServerError);
      }
      io.Emit(ListCreated(id, newList));
      r := Done(newList);
    }

    /** `deleteList`: only an admin or the list's creator may delete it.
        Without a socket server the unguarded `io.to` throws after the save. */
    method DeleteList(role: Role, actor: Id, listId: Id, io: Io?) returns (r: Reply<()>)
      modifies this, io
      ensures old(Valid()) ==> Valid()
      ensures members == old(members) && name == old(name)
      ensures FindList(old(lists), listId).None? ==> r == Fail(NotFound) && lists == old(lists)
      ensures FindList(old(lists), listId).Some? && role != Admin
              && FindList(old(lists), listId).value.createdBy != actor ==>
        r == Fail(Forbidden) && lists == old(lists)
      ensures ListDeletionAllowed(old(lists), listId, role, actor) ==>
        lists == WithoutList(old(lists), listId)
        && (io == null ==> r == Fail(ServerError))
        && (io != null ==> r == Done(()) && io.sent == old(io.sent) + [ListDeleted(id, listId)])
      ensures r.Fail? && io != null ==> io.sent == old(io.sent)
    {
      var list := FindList(lists, listId);
      if list.None? {
        return Fail(NotFound);
      }
      var isAdmin := role == Admin;
      var isCreator := list.value.createdBy == actor;
      if !isAdmin && !isCreator {
        return Fail(Forbidden);
      }
      if UniqueListIds(lists) {
        WithoutListKeepsUnique(lists, listId);
      }
      lists := WithoutList(lists, listId);
      if io == null {
        return Fail(ServerError);
      }
      io.Emit(ListDeleted(id, listId));
      r := Done(());
    }

    /** `updateListsOrder`: replace the lists wholesale by `given` if it is a permutation;
        the save then fails, and nothing is written, unless every list names its creator. */
    method UpdateListsOrder(given: Option<seq<ListItem>>) returns (r: Reply<seq<List>>)
      modifies this
      ensures old(Valid()) ==> Valid()
      ensures members == old(members) && name == old(name)
      ensures !ListOrderAccepted(old(lists), given) ==> r == Fail(BadRequest) && lists == old(lists)
      ensures ListOrderAccepted(old(lists), given) && !ItemsSaveable(given.value) ==>
        r == Fail(ServerError) && lists == old(lists)
      ensures ListOrderAccepted(old(lists), given) && ItemsSaveable(given.value) ==>
        r == Done(AsLists(given.value)) && lists == AsLists(given.value)
      ensures r.Done? ==> multiset(ListIds(lists)) == multiset(ListIds(old(lists)))
    {
      if given.None? || |given.value| != |lists| {
        return Fail(BadRequest);
      }
      var currentIds := SortIds(ListIds(lists));
      var newIds := SortIds(ItemIds(given.value));
      if currentIds != newIds {
        return Fail(BadRequest);
      }
      if !ItemsSaveable(given.value) {
        return Fail(ServerError);
      }
      var saved := AsLists(given.value);
      SortedIdsMatchIffPermutation(ListIds(old(lists)), ItemIds(given.value));
      if UniqueListIds(lists) {
        PermutationKeepsUniqueListIds(lists, saved);
      }
      lists := saved;
      r := Done(lists);
    }
  }

  /** `removeUser` goes through: the user has an entry, and it is not the last admin's. */
  predicate RemovalAllowed(ms: seq<Membership>, u: Id) {
    FindMember(ms, u).Some? && !(FindMember(ms, u).value.role == Admin && AdminCount(ms) <= 1)
  }

  /** `deleteList` goes through: the list exists and the caller is an admin or its creator. */
  predicate ListDeletionAllowed(ls: seq<List>, listId: Id, role: Role, actor: Id) {
    FindList(ls, listId).Some? && (role == Admin || FindList(ls, listId).value.createdBy == actor)
  }

  // ---------------------------------------------------------------------
  // Lemmas
  // ---------------------------------------------------------------------

  lemma {:induction false} AdminCountAppend(ms: seq<Membership>, m: Membership)
    ensures AdminCount(ms + [m]) == AdminCount(ms) + (if m.role == Admin then 1 else 0)
  {
    if ms != [] {
      assert (ms + [m])[1..] == ms[1..] + [m];
      AdminCountAppend(ms[1..], m);
    }
  }

  /** Inviting a new user keeps the admins and keeps one entry per user. */
  lemma AppendKeepsAdmins(ms: seq<Membership>, m: Membership)
    requires !IsMember(ms, m.user)
    ensures AdminCount(ms + [m]) >= AdminCount(ms)
    ensures UniqueUsers(ms) ==> UniqueUsers(ms + [m])
  {
    AdminCountAppend(ms, m);
  }

  /** Filtering out user `u` loses exactly `u`'s admin entries. */
  lemma {:induction false} AdminCountWithout(ms: seq<Membership>, u: Id)
    ensures AdminCount(Without(ms, u)) == AdminCount(ms) - AdminEntriesOf(ms, u)
  {
    if ms != [] {
      AdminCountWithout(ms[1..], u);
      var head := if ms[0].user != u then [ms[0]] else [];
      AdminCountConcat(head, Without(ms[1..], u));
    }
  }

  lemma {:induction false} AdminCountConcat(a: seq<Membership>, b: seq<Membership>)
    ensures AdminCount(a + b) == AdminCount(a) + AdminCount(b)
  {
    if a == [] {
      assert a + b == b;
    } else {
      assert (a + b)[0] == a[0] && (a + b)[1..] == a[1..] + b;
      AdminCountConcat(a[1..], b);
    }
  }

  /** With one entry per user, `u` holds an admin entry exactly when its (only) entry is an admin one. */
  lemma {:induction false} AdminEntriesOfUnique(ms: seq<Membership>, u: Id)
    requires UniqueUsers(ms) && FindMember(ms, u).Some?
    ensures AdminEntriesOf(ms, u) == if FindMember(ms, u).value.role == Admin then 1 else 0
  {
    if ms[0].user == u {
      NoEntriesOf(ms[1..], u);
    } else {
      AdminEntriesOfUnique(ms[1..], u);
    }
  }

  lemma {:induction false} NoEntriesOf(ms: seq<Membership>, u: Id)
    requires forall k :: 0 <= k < |ms| ==> ms[k].user != u
    ensures AdminEntriesOf(ms, u) == 0
  {
    if ms != [] {
      NoEntriesOf(ms[1..], u);
    }
  }

  /** The last-admin guard: on a board with one entry per user and at least one admin,
      a removal that `removeUser` lets through leaves at least one admin. */
  lemma RemoveKeepsAnAdmin(ms: seq<Membership>, u: Id)
    requires UniqueUsers(ms) && AdminCount(ms) >= 1 && RemovalAllowed(ms, u)
    ensures AdminCount(Without(ms, u)) >= 1
  {
    AdminCountWithout(ms, u);
    AdminEntriesOfUnique(ms, u);
  }

  /** A removal keeps every other member, in the original order: filtering commutes with concatenation. */
  lemma {:induction false} WithoutConcat(a: seq<Membership>, b: seq<Membership>, u: Id)
    ensures Without(a + b, u) == Without(a, u) + Without(b, u)
  {
    if a == [] {
      assert a + b == b;
    } else {
      assert (a + b)[0] == a[0] && (a + b)[1..] == a[1..] + b;
      WithoutConcat(a[1..], b, u);
    }
  }

  lemma {:induction false} WithoutKeepsUnique(ms: seq<Membership>, u: Id)
    requires UniqueUsers(ms)
    ensures UniqueUsers(Without(ms, u))
  {
    if ms != [] {
      WithoutKeepsUnique(ms[1..], u);
      var rest := Without(ms[1..], u);
      if ms[0].user != u {
        forall k | 0 <= k < |rest| ensures rest[k].user != ms[0].user {
          assert rest[k] in ms[1..];
        }
      }
    }
  }

  lemma SortedTail(s: seq<Id>)
    requires s != [] && SortedIds(s)
    ensures SortedIds(s[1..]) && forall y :: y in s ==> s[0] <= y
  {
    forall j, k | 0 <= j < k < |s| - 1 ensures s[1..][j] <= s[1..][k] {
      assert s[1..][j] == s[j + 1] && s[1..][k] == s[k + 1];
    }
  }

  /** Two sorted sequences with the same elements are equal. */
  lemma {:induction false} SortedUnique(a: seq<Id>, b: seq<Id>)
    requires SortedIds(a) && SortedIds(b) && multiset(a) == multiset(b)
    ensures a == b
  {
    if a == [] {
      assert |multiset(b)| == 0;
    } else {
      assert |b| == |a| by { assert |multiset(a)| == |multiset(b)|; }
      SortedSameHead(a, b);
      DropHead(a);
      DropHead(b);
      SortedTail(a);
      SortedTail(b);
      SortedUnique(a[1..], b[1..]);
      assert a == [a[0]] + a[1..] && b == [b[0]] + b[1..];
    }
  }

  /** Two sorted sequences with the same elements start with the same, least, one. */
  lemma SortedSameHead(a: seq<Id>, b: seq<Id>)
    requires a != [] && b != [] && SortedIds(a) && SortedIds(b) && multiset(a) == multiset(b)
    ensures a[0] == b[0]
  {
    SortedTail(a);
    SortedTail(b);
    assert a[0] in multiset(b) && b[0] in multiset(a);
  }

  lemma DropHead(a: seq<Id>)
    requires a != []
    ensures multiset(a[1..]) == multiset(a) - multiset{a[0]}
  {
    assert a == [a[0]] + a[1..];
  }

  /** The sorted-id comparison of `updateListsOrder` accepts exactly the permutations. */
  lemma SortedIdsMatchIffPermutation(a: seq<Id>, b: seq<Id>)
    ensures SortIds(a) == SortIds(b) <==> multiset(a) == multiset(b)
  {
    if multiset(a) == multiset(b) {
      SortedUnique(SortIds(a), SortIds(b));
    }
  }

  /** `updateListsOrder` accepts the body exactly when it is an array holding a permutation of the current list ids. */
  lemma ListOrderAcceptedIffPermutation(current: seq<List>, given: Option<seq<ListItem>>)
    ensures ListOrderAccepted(current, given) <==>
      given.Some? && multiset(ItemIds(given.value)) == multiset(ListIds(current))
  {
    if given.Some? {
      SortedIdsMatchIffPermutation(ListIds(current), ItemIds(given.value));
      if multiset(ItemIds(given.value)) == multiset(ListIds(current)) {
        assert |multiset(ItemIds(given.value))| == |multiset(ListIds(current))|;
      }
    }
  }

  /** A body of list objects with `_id` and `name` only passes every check of
      `updateListsOrder` and is then rejected by the save. */
  lemma IdAndNameBodyFailsToSave()
    ensures var current := [List(1, Some("todo"), 7)];
            var given := Some([ListItem(1, Some("todo"), None)]);
            ListOrderAccepted(current, given) && !ItemsSaveable(given.value)
  {
    var current := [List(1, Some("todo"), 7)];
    var items := [ListItem(1, Some("todo"), None)];
    assert ListIds(current) == [1] && ItemIds(items) == [1];
    assert SortIds([1]) == [1];
    assert items[0].createdBy.None?;
  }

  /** A successful removal of the user of entry `m` gives back the other entries, in order. */
  lemma {:induction false} RemoveKeepsOthersInOrder(a: seq<Membership>, m: Membership, b: seq<Membership>)
    requires UniqueUsers(a + [m] + b)
    ensures Without(a + [m] + b, m.user) == a + b
  {
    OthersAreOtherUsers(a, m, b);
    var u := m.user;
    WithoutConcat(a + [m], b, u);
    WithoutConcat(a, [m], u);
    assert Without([m], u) == [] by {
      assert [m][1..] == [];
    }
    WithoutNone(a, u);
    WithoutNone(b, u);
    calc {
      Without(a + [m] + b, u);
      Without(a + [m], u) + Without(b, u);
      Without(a, u) + Without([m], u) + Without(b, u);
      a + [] + b;
      { assert a + [] == a; }
      a + b;
    }
  }

  lemma OthersAreOtherUsers(a: seq<Membership>, m: Membership, b: seq<Membership>)
    requires UniqueUsers(a + [m] + b)
    ensures forall x :: x in a ==> x.user != m.user
    ensures forall x :: x in b ==> x.user != m.user
  {
    var ms := a + [m] + b;
    assert ms[|a|] == m;
    forall x | x in a ensures x.user != m.user {
      var j :| 0 <= j < |a| && a[j] == x;
      assert ms[j] == x;
    }
    forall x | x in b ensures x.user != m.user {
      var j :| 0 <= j < |b| && b[j] == x;
      assert ms[|a| + 1 + j] == x;
    }
  }

  lemma {:induction false} WithoutNone(ms: seq<Membership>, u: Id)
    requires forall x :: x in ms ==> x.user != u
    ensures Without(ms, u) == ms
  {
    if ms != [] {
      assert ms == [ms[0]] + ms[1..];
      WithoutNone(ms[1..], u);
    }
  }

  lemma {:induction false} WithoutListConcat(a: seq<List>, b: seq<List>, id: Id)
    ensures WithoutList(a + b, id) == WithoutList(a, id) + WithoutList(b, id)
  {
    if a == [] {
      assert a + b == b;
    } else {
      assert (a + b)[0] == a[0] && (a + b)[1..] == a[1..] + b;
      WithoutListConcat(a[1..], b, id);
    }
  }

  lemma {:induction false} WithoutListNone(ls: seq<List>, id: Id)
    requires forall x :: x in ls ==> x.id != id
    ensures WithoutList(ls, id) == ls
  {
    if ls != [] {
      assert ls == [ls[0]] + ls[1..];
      WithoutListNone(ls[1..], id);
    }
  }

  /** When list ids are distinct, deleting list `x` removes only `x`; the other lists keep their order. */
  lemma {:induction false} DeleteListKeepsOthersInOrder(a: seq<List>, x: List, b: seq<List>)
    requires forall y :: y in a + b ==> y.id != x.id
    ensures WithoutList(a + [x] + b, x.id) == a + b
  {
    var id := x.id;
    WithoutListConcat(a + [x], b, id);
    WithoutListConcat(a, [x], id);
    assert WithoutList([x], id) == [] by {
      assert [x][1..] == [];
    }
    WithoutListNone(a, id);
    WithoutListNone(b, id);
    calc {
      WithoutList(a + [x] + b, id);
      WithoutList(a + [x], id) + WithoutList(b, id);
      WithoutList(a, id) + WithoutList([x], id) + WithoutList(b, id);
      a + [] + b;
      { assert a + [] == a; }
      a + b;
    }
  }

  /** Putting a list in front of lists with other ids keeps the ids unique. */
  lemma ConsKeepsUniqueListIds(h: List, r: seq<List>)
    requires UniqueListIds(r) && forall x :: x in r ==> x.id != h.id
    ensures UniqueListIds([h] + r)
  {
    forall j, k | 0 <= j < k < |r| + 1 ensures ([h] + r)[j].id != ([h] + r)[k].id {
      assert ([h] + r)[k] == r[k - 1] && r[k - 1] in r;
      if j > 0 {
        assert ([h] + r)[j] == r[j - 1];
      }
    }
  }

  /** Deleting a list keeps the ids of the remaining lists unique. */
  lemma {:induction false} WithoutListKeepsUnique(ls: seq<List>, id: Id)
    requires UniqueListIds(ls)
    ensures UniqueListIds(WithoutList(ls, id))
  {
    if ls != [] {
      var tail := ls[1..];
      assert UniqueListIds(tail) by {
        forall j, k | 0 <= j < k < |tail| ensures tail[j].id != tail[k].id {
          assert tail[j] == ls[j + 1] && tail[k] == ls[k + 1];
        }
      }
      WithoutListKeepsUnique(tail, id);
      var rest := WithoutList(tail, id);
      if ls[0].id != id {
        forall x | x in rest ensures x.id != ls[0].id {
          var k :| 0 <= k < |tail| && tail[k] == x;
          assert ls[k + 1] == x;
        }
        ConsKeepsUniqueListIds(ls[0], rest);
      } else {
        assert WithoutList(ls, id) == [] + rest;
      }
    }
  }

  /** In a sequence of distinct ids every id occurs at most once. */
  lemma {:induction false} DistinctAtMostOnce(s: seq<Id>, x: Id)
    requires forall j, k :: 0 <= j < k < |s| ==> s[j] != s[k]
    ensures multiset(s)[x] <= 1
  {
    if s != [] {
      var tail := s[1..];
      assert s == [s[0]] + tail;
      assert forall j, k :: 0 <= j < k < |tail| ==> tail[j] != tail[k] by {
        forall j, k | 0 <= j < k < |tail| ensures tail[j] != tail[k] {
          assert tail[j] == s[j + 1] && tail[k] == s[k + 1];
        }
      }
      DistinctAtMostOnce(tail, x);
      if s[0] == x {
        assert forall k :: 0 <= k < |tail| ==> tail[k] != x by {
          forall k | 0 <= k < |tail| ensures tail[k] != x {
            assert tail[k] == s[k + 1];
          }
        }
        assert x !in tail;
      }
    }
  }

  /** An id at two indices occurs at least twice. */
  lemma RepeatCountsTwice(s: seq<Id>, j: nat, k: nat)
    requires j < k < |s|
    ensures s[j] == s[k] ==> multiset(s)[s[j]] >= 2
  {
    assert s == s[..k] + s[k..];
    assert s[..k][j] == s[j] && s[k..][0] == s[k];
    assert s[j] in s[..k] && s[k] in s[k..];
  }

  /** Lists whose ids are a permutation of unique ids have unique ids, so a reorder
      keeps the board's lists distinct. */
  lemma PermutationKeepsUniqueListIds(a: seq<List>, b: seq<List>)
    requires UniqueListIds(a) && multiset(ListIds(a)) == multiset(ListIds(b))
    ensures UniqueListIds(b)
  {
    var ia, ib := ListIds(a), ListIds(b);
    forall j, k | 0 <= j < k < |b| ensures b[j].id != b[k].id {
      RepeatCountsTwice(ib, j, k);
      DistinctAtMostOnce(ia, ib[j]);
    }
  }
}

=== FILE: deadlines.dfy ===
/** One tick of the deadline scan of cron.js: select the tasks due within the
    next hour and, for each, remind its assignee (and record a notification)
    and remind its board's room. */
module Deadlines {
  import opened Model

  /** One hour, in milliseconds. */
  const Window: int := 60 * 60 * 1000

  /** `deadline: { $gte: now, $lte: now + 1h }`, both ends inclusive. */
  predicate InWindow(t: Task, now: Millis) {
    t.deadline.Some? && now <= t.deadline.value <= now + Window
  }

  /** The tasks of the scan's query, in store order. */
  function Selected(ts: seq<Task>, now: Millis): (r: seq<Task>)
    ensures forall t :: t in r <==> t in ts && InWindow(t, now)
    ensures |r| <= |ts|
  {
    if ts == [] then []
    else
      var last := ts[|ts| - 1];
      Selected(ts[..|ts| - 1], now) + (if InWindow(last, now) then [last] else [])
  }

  /** The reminder text: the task's title and its deadline (the formatting of
      the time of day is not modelled). */
  datatype Message = DueMessage(title: string, deadline: Millis)

  /** A Notification document. */
  datatype Notification = Notification(user: Id, boardId: Id, taskId: Id, title: string, message: Message)

  /** A side effect of the scan, in the order the tick performs them. */
  datatype Action =
    | UserReminder(user: Id, taskId: Id, title: string, deadline: Millis, boardId: Id, message: Message)
    | Persisted(note: Notification)
    | BoardReminder(boardId: Id, taskId: Id, title: string, deadline: Millis, message: Message)

  function MessageOf(t: Task): Message
    requires t.deadline.Some?
  {
    DueMessage(t.title, t.deadline.value)
  }

  /** The notification recorded for an assigned task. */
  function NotificationOf(t: Task): Notification
    requires t.deadline.Some? && t.assignedTo.Some?
  {
    Notification(t.assignedTo.value, t.boardId, t.id, t.title, MessageOf(t))
  }

  /** The side effects of the loop body for one selected task. */
  function TaskActions(t: Task): seq<Action>
    requires t.deadline.Some?
  {
    var board := BoardReminder(t.boardId, t.id, t.title, t.deadline.value, MessageOf(t));
    if t.assignedTo.Some? then
      [UserReminder(t.assignedTo.value, t.id, t.title, t.deadline.value, t.boardId, MessageOf(t)),
       Persisted(NotificationOf(t)),
       board]
    else [board]
  }

  /** Every task of the sequence carries a deadline. */
  predicate AllDated(s: seq<Task>) {
    forall k :: 0 <= k < |s| ==> s[k].deadline.Some?
  }

  /** The side effects of the loop over `s`, when nothing throws. */
  function ActionsOf(s: seq<Task>): seq<Action>
    requires AllDated(s)
  {
    if s == [] then []
    else ActionsOf(s[..|s| - 1]) + TaskActions(s[|s| - 1])
  }

  lemma SelectedAreDated(ts: seq<Task>, now: Millis)
    ensures AllDated(Selected(ts, now))
  {
    var s := Selected(ts, now);
    forall k | 0 <= k < |s| ensures s[k].deadline.Some? {
      assert s[k] in s;
    }
  }

  /** Everything one tick at `now` does when no side effect throws. */
  function TickActions(ts: seq<Task>, now: Millis): seq<Action> {
    SelectedAreDated(ts, now);
    ActionsOf(Selected(ts, now))
  }

  /** The side effects that take place when the one at index `failAt` throws:
      the exception ends the loop and is only logged. */
  function Cut(all: seq<Action>, failAt: Option<nat>): (r: seq<Action>)
    ensures r <= all
    ensures failAt.None? ==> r == all
    ensures failAt.Some? ==> |r| == if failAt.value < |all| then failAt.value else |all|
  {
    match failAt
    case None => all
    case Some(n) => if n < |all| then all[..n] else all
  }

  lemma {:induction false} ActionsOfAppend(a: seq<Task>, b: seq<Task>)
    requires AllDated(a) && AllDated(b)
    ensures AllDated(a + b) && ActionsOf(a + b) == ActionsOf(a) + ActionsOf(b)
  {
    if b != [] {
      var b' := b[..|b| - 1];
      assert (a + b)[..|a + b| - 1] == a + b';
      ActionsOfAppend(a, b');
    } else {
      assert a + b == a;
    }
  }

  /** The loop so far, `ActionsOf(s[..j])`, is where the full loop over `s` begins. */
  lemma {:induction false} ActionsOfPrefix(s: seq<Task>, j: nat)
    requires AllDated(s) && j <= |s|
    ensures AllDated(s[..j]) && ActionsOf(s[..j]) <= ActionsOf(s)
  {
    assert s == s[..j] + s[j..];
    ActionsOfAppend(s[..j], s[j..]);
  }

  /** One more turn of the loop over `s` appends the side effects of `s[i]`, and stays
      a prefix of the whole loop: any prefix of it is a prefix of the whole loop. */
  lemma ActionsOfStep(s: seq<Task>, i: nat)
    requires AllDated(s) && i < |s|
    ensures AllDated(s[..i]) && AllDated(s[..i + 1])
    ensures ActionsOf(s[..i + 1]) == ActionsOf(s[..i]) + TaskActions(s[i])
    ensures ActionsOf(s[..i + 1]) <= ActionsOf(s)
    ensures forall n :: 0 <= n <= |ActionsOf(s[..i + 1])| ==>
      n <= |ActionsOf(s)| && ActionsOf(s[..i + 1])[..n] == ActionsOf(s)[..n]
  {
    assert s[..i + 1][..i] == s[..i];
    ActionsOfPrefix(s, i + 1);
  }

  /** The loop body for one selected task, after `sent` went out: the user
      reminder and the notification when the task has an assignee, then the
      board reminder. `stopped` says that the side effect at index `failAt` threw. */
  method RemindOne(task: Task, sent: seq<Action>, failAt: Option<nat>) returns (sent': seq<Action>, stopped: bool)
    requires task.deadline.Some? && (failAt.Some? ==> |sent| <= failAt.value)
    ensures !stopped ==> sent' == sent + TaskActions(task) && (failAt.Some? ==> |sent'| <= failAt.value)
    ensures stopped ==> && failAt.Some? && failAt.value < |sent| + |TaskActions(task)|
                        && sent' == (sent + TaskActions(task))[..failAt.value]
  {
    var message := DueMessage(task.title, task.deadline.value);
    sent' := sent;
    if task.assignedTo.Some? {
      if failAt == Some(|sent'|) { return sent', true; }
      sent' := sent' + [UserReminder(task.assignedTo.value, task.id, task.title, task.deadline.value, task.boardId, message)];
      if failAt == Some(|sent'|) { return sent', true; }
      sent' := sent' + [Persisted(Notification(task.assignedTo.value, task.boardId, task.id, task.title, message))];
    }
    if failAt == Some(|sent'|) { return sent', true; }
    sent' := sent' + [BoardReminder(task.boardId, task.id, task.title, task.deadline.value, message)];
    stopped := false;
  }

  /** One tick. `failAt` is the index of the first side effect that throws, if
      any; the scan catches the exception and stops there. */
  method Tick(tasks: seq<Task>, now: Millis, failAt: Option<nat>) returns (sent: seq<Action>)
    ensures sent == Cut(TickActions(tasks, now), failAt)
  {
    var upcoming := Selected(tasks, now);
    SelectedAreDated(tasks, now);
    ghost var all := ActionsOf(upcoming);
    sent := [];
    var i := 0;
    var stopped := false;
    while i < |upcoming| && !stopped
      invariant 0 <= i <= |upcoming|
      invariant !stopped ==> sent == ActionsOf(upcoming[..i]) && (failAt.Some? ==> |sent| <= failAt.value)
      invariant stopped ==> failAt.Some? && failAt.value < |all| && sent == all[..failAt.value]
    {
      var task := upcoming[i];
      ActionsOfStep(upcoming, i);
      sent, stopped := RemindOne(task, sent, failAt);
      i := i + 1;
    }
    if !stopped {
      assert upcoming[..i] == upcoming;
    }
  }

  // ---------------------------------------------------------------------
  // What one tick sends
  // ---------------------------------------------------------------------

  /** The ids of the tasks reminded to their board's room, in order. */
  function BoardReminded(acts: seq<Action>): seq<Id> {
    if acts == [] then []
    else
      var last := acts[|acts| - 1];
      BoardReminded(acts[..|acts| - 1]) + (if last.BoardReminder? then [last.taskId] else [])
  }

  /** The (user, task) pairs of the user reminders, in order. */
  function UserReminded(acts: seq<Action>): seq<(Id, Id)> {
    if acts == [] then []
    else
      var last := acts[|acts| - 1];
      UserReminded(acts[..|acts| - 1]) + (if last.UserReminder? then [(last.user, last.taskId)] else [])
  }

  /** The notifications recorded, in order. */
  function Notifications(acts: seq<Action>): seq<Notification> {
    if acts == [] then []
    else
      var last := acts[|acts| - 1];
      Notifications(acts[..|acts| - 1]) + (if last.Persisted? then [last.note] else [])
  }

  lemma {:induction false} ProjectionsAppend(a: seq<Action>, b: seq<Action>)
    ensures BoardReminded(a + b) == BoardReminded(a) + BoardReminded(b)
    ensures UserReminded(a + b) == UserReminded(a) + UserReminded(b)
    ensures Notifications(a + b) == Notifications(a) + Notifications(b)
  {
    if b == [] {
      assert a + b == a;
    } else {
      var b' := b[..|b| - 1];
      assert (a + b)[..|a + b| - 1] == a + b';
      ProjectionsAppend(a, b');
    }
  }

  lemma ProjectionsOne(x: Action)
    ensures BoardReminded([x]) == if x.BoardReminder? then [x.taskId] else []
    ensures UserReminded([x]) == if x.UserReminder? then [(x.user, x.taskId)] else []
    ensures Notifications([x]) == if x.Persisted? then [x.note] else []
  {
    assert [x][..0] == [];
  }

  /** The loop body reminds the board once, and an assignee once with one notification. */
  lemma TaskActionsSend(t: Task)
    requires t.deadline.Some?
    ensures BoardReminded(TaskActions(t)) == [t.id]
    ensures UserReminded(TaskActions(t)) == if t.assignedTo.Some? then [(t.assignedTo.value, t.id)] else []
    ensures Notifications(TaskActions(t)) == if t.assignedTo.Some? then [NotificationOf(t)] else []
  {
    var acts := TaskActions(t);
    if t.assignedTo.Some? {
      ThreeActions(acts[0], acts[1], acts[2]);
      assert acts == [acts[0], acts[1], acts[2]];
    } else {
      ProjectionsOne(acts[0]);
      assert acts == [acts[0]];
    }
  }

  lemma ThreeActions(x: Action, y: Action, z: Action)
    requires x.UserReminder? && y.Persisted? && z.BoardReminder?
    ensures BoardReminded([x, y, z]) == [z.taskId]
    ensures UserReminded([x, y, z]) == [(x.user, x.taskId)]
    ensures Notifications([x, y, z]) == [y.note]
  {
    ProjectionsOne(x);
    assert [x, y, z][..2] == [x, y] && [x, y][..1] == [x];
    assert BoardReminded([x, y]) == [] && UserReminded([x, y]) == [(x.user, x.taskId)] && Notifications([x, y]) == [y.note];
  }

  /** The tasks that have an assignee, in order. */
  function Assigned(s: seq<Task>): (r: seq<Task>)
    ensures forall t :: t in r <==> t in s && t.assignedTo.Some?
  {
    if s == [] then []
    else
      var last := s[|s| - 1];
      Assigned(s[..|s| - 1]) + (if last.assignedTo.Some? then [last] else [])
  }

  function IdsOf(s: seq<Task>): (r: seq<Id>)
    ensures |r| == |s| && forall k :: 0 <= k < |s| ==> r[k] == s[k].id
  {
    seq(|s|, k requires 0 <= k < |s| => s[k].id)
  }

  /** The assignee and id of every assigned task, in order. */
  function AssigneesOf(s: seq<Task>): (r: seq<(Id, Id)>)
    ensures |r| == |Assigned(s)|
    ensures forall k :: 0 <= k < |r| ==> r[k] == (Assigned(s)[k].assignedTo.value, Assigned(s)[k].id)
  {
    var a := Assigned(s);
    seq(|a|, k requires 0 <= k < |a| => (a[k].assignedTo.value, a[k].id))
  }

  /** The notification of every assigned task, in order. */
  function NotificationsFor(s: seq<Task>): (r: seq<Notification>)
    requires AllDated(s)
    ensures |r| == |Assigned(s)|
    ensures forall n :: n in r ==>
      exists t :: t in s && t.assignedTo == Some(n.user) && n.taskId == t.id && n.boardId == t.boardId && n.title == t.title
  {
    var a := Assigned(s);
    assert forall k :: 0 <= k < |a| ==> a[k] in s;
    seq(|a|, k requires 0 <= k < |a| => NotificationOf(a[k]))
  }

  /** Looping over `s` reminds the board of every task of `s` once, and the
      assignee of every assigned task once, with one notification for it; in the
      order of `s`. */
  lemma {:induction false} ActionsOfSends(s: seq<Task>)
    requires AllDated(s)
    ensures BoardReminded(ActionsOf(s)) == IdsOf(s)
    ensures UserReminded(ActionsOf(s)) == AssigneesOf(s)
    ensures Notifications(ActionsOf(s)) == NotificationsFor(s)
  {
    if s != [] {
      var p, t := s[..|s| - 1], s[|s| - 1];
      assert AllDated(p);
      ActionsOfSends(p);
      var before, step := ActionsOf(p), TaskActions(t);
      assert ActionsOf(s) == before + step;
      ProjectionsAppend(before, step);
      TaskActionsSend(t);
      AssignedStep(s);
    }
  }

  lemma AssignedStep(s: seq<Task>)
    requires s != [] && AllDated(s)
    ensures AllDated(s[..|s| - 1])
    ensures var p, t := s[..|s| - 1], s[|s| - 1];
            && IdsOf(s) == IdsOf(p) + [t.id]
            && AssigneesOf(s) == AssigneesOf(p) + (if t.assignedTo.Some? then [(t.assignedTo.value, t.id)] else [])
            && NotificationsFor(s) == NotificationsFor(p) + (if t.assignedTo.Some? then [NotificationOf(t)] else [])
  {
    var p := s[..|s| - 1];
    assert forall k :: 0 <= k < |p| ==> p[k] == s[k];
    IdsStep(s);
    AssigneesStep(s);
    NotificationsStep(s);
  }

  lemma IdsStep(s: seq<Task>)
    requires s != []
    ensures IdsOf(s) == IdsOf(s[..|s| - 1]) + [s[|s| - 1].id]
  {
    var p := s[..|s| - 1];
    assert forall k :: 0 <= k < |p| ==> p[k] == s[k];
  }

  lemma AssigneesStep(s: seq<Task>)
    requires s != []
    ensures var t := s[|s| - 1];
            AssigneesOf(s) == AssigneesOf(s[..|s| - 1]) + (if t.assignedTo.Some? then [(t.assignedTo.value, t.id)] else [])
  {
    var a, a' := Assigned(s), Assigned(s[..|s| - 1]);
    assert forall k :: 0 <= k < |a'| ==> a[k] == a'[k];
  }

  lemma NotificationsStep(s: seq<Task>)
    requires s != [] && AllDated(s)
    ensures AllDated(s[..|s| - 1])
    ensures var t := s[|s| - 1];
            NotificationsFor(s) == NotificationsFor(s[..|s| - 1]) + (if t.assignedTo.Some? then [NotificationOf(t)] else [])
  {
    var p := s[..|s| - 1];
    assert forall k :: 0 <= k < |p| ==> p[k] == s[k];
    var a, a' := Assigned(s), Assigned(p);
    assert forall k :: 0 <= k < |a'| ==> a[k] == a'[k];
  }

  /** One tick at `now` reminds the board of exactly the selected tasks, and the
      assignees of exactly the selected tasks that have one, recording one
      notification each. */
  lemma TickSends(ts: seq<Task>, now: Millis)
    ensures BoardReminded(TickActions(ts, now)) == IdsOf(Selected(ts, now))
    ensures UserReminded(TickActions(ts, now)) == AssigneesOf(Selected(ts, now))
    ensures AllDated(Selected(ts, now)) && Notifications(TickActions(ts, now)) == NotificationsFor(Selected(ts, now))
  {
    SelectedAreDated(ts, now);
    ActionsOfSends(Selected(ts, now));
  }

  /** The tick keeps no record of what it already sent: a task is reminded again
      at every tick of the hour before its deadline, both ends included. */
  lemma RemindedAtEveryTickOfTheLastHour(ts: seq<Task>, t: Task, now: Millis)
    requires t in ts && t.deadline.Some? && t.deadline.value - Window <= now <= t.deadline.value
    ensures t.id in BoardReminded(TickActions(ts, now))
    ensures t.assignedTo.Some? ==> (t.assignedTo.value, t.id) in UserReminded(TickActions(ts, now))
    ensures t.assignedTo.Some? ==> NotificationOf(t) in Notifications(TickActions(ts, now))
  {
    var s := Selected(ts, now);
    TickSends(ts, now);
    assert t in s;
    var k :| 0 <= k < |s| && s[k] == t;
    assert IdsOf(s)[k] == t.id;
    if t.assignedTo.Some? {
      var a := Assigned(s);
      assert t in a;
      var j :| 0 <= j < |a| && a[j] == t;
      assert AssigneesOf(s)[j] == (t.assignedTo.value, t.id);
      assert NotificationsFor(s)[j] == NotificationOf(t);
    }
  }

  /** Tasks without a deadline, or due outside the window, are never reminded. */
  lemma OutsideWindowNotReminded(ts: seq<Task>, now: Millis, id: Id)
    requires forall t :: t in ts && t.id == id ==> !InWindow(t, now)
    ensures id !in BoardReminded(TickActions(ts, now))
    ensures forall u :: (u, id) !in UserReminded(TickActions(ts, now))
  {
    var s := Selected(ts, now);
    TickSends(ts, now);
    forall k | 0 <= k < |s| ensures IdsOf(s)[k] != id {
      assert s[k] in s;
    }
    forall u ensures (u, id) !in UserReminded(TickActions(ts, now)) {
      var a := Assigned(s);
      forall k | 0 <= k < |a| ensures AssigneesOf(s)[k] != (u, id) {
        assert a[k] in a;
      }
    }
  }

  /** As written, the two emit helpers the scan imports are not exported by
      the socket module, so the first side effect of the first selected task
      throws: the tick sends nothing and records nothing, although the scan
      would have something to send as soon as one task is due within the hour. */
  lemma ShippedTickSendsNothing(ts: seq<Task>, now: Millis)
    ensures Cut(TickActions(ts, now), Some(0)) == []
    ensures (exists t :: t in ts && InWindow(t, now)) ==> TickActions(ts, now) != []
  {
    if t :| t in ts && InWindow(t, now) {
      RemindedAtEveryTickOfTheLastHour(ts, t, now);
    }
  }

  /** A failure stops the tick: what was sent is exactly the side effects up to the
      failing one, and nothing of the tasks after it. */
  lemma FailureAbandonsTheRest(ts: seq<Task>, now: Millis, n: nat)
    requires n < |TickActions(ts, now)|
    ensures Cut(TickActions(ts, now), Some(n)) == TickActions(ts, now)[..n]
    ensures |Cut(TickActions(ts, now), Some(n))| < |TickActions(ts, now)|
  {
  }
}

=== FILE: model.dfy ===
/** Records shared by the controllers, the role middleware and the deadline
    scan: the shapes of the Task, Board and Notification documents, the
    outcome codes a handler answers with, and the socket events it emits. */
module Model {

  /** Object ids (Mongo ObjectIds) are opaque; naturals stand for them. */
  type Id = nat

  /** Timestamps are integer milliseconds since the epoch. */
  type Millis = int

  datatype Option<+T> = None | Some(value: T)

  /** Membership role; the Board schema restricts it to these two values. */
  datatype Role = Admin | Member

  datatype Membership = Membership(user: Id, role: Role)

  /** `members.find(m => m.user === u)`: the first membership entry of user `u`. */
  function FindMember(ms: seq<Membership>, u: Id): (r: Option<Membership>)
    ensures r.None? <==> forall k :: 0 <= k < |ms| ==> ms[k].user != u
    ensures r.Some? ==> exists k :: 0 <= k < |ms| && ms[k] == r.value && ms[k].user == u
                                    && forall j :: 0 <= j < k ==> ms[j].user != u
  {
    if ms == [] then None
    else if ms[0].user == u then Some(ms[0])
    else
      FindMember(ms[1..], u)
  }

  /** A list embedded in a board. `name` is not required by the schema. */
  datatype List = List(id: Id, name: Option<string>, createdBy: Id)

  /** A snapshot of a Board document as the role middleware loads it. */
  datatype BoardDoc = BoardDoc(id: Id, name: string, members: seq<Membership>, lists: seq<List>)

  /** A Task document. Optional schema fields are `Option`s. The completion
      fields of the schema are never written by any handler and are omitted. */
  datatype Task = Task(
    id: Id,
    boardId: Id,
    listId: Id,
    title: string,
    description: Option<string>,
    deadline: Option<Millis>,
    attachment: Option<string>,
    position: int,
    assignedTo: Option<Id>,
    createdBy: Id)

  /** The HTTP status a handler answers with when it does not succeed:
      400, 403, 404 and 500. */
  datatype Code = BadRequest | Forbidden | NotFound | ServerError

  /** What a handler answers: a success carrying the response body, or an error status. */
  datatype Reply<+T> = Done(body: T) | Fail(code: Code)

  datatype ChangeKind = Created | Updated | Deleted

  /** A socket event sent to a board room (`io.to(boardId).emit(...)`). */
  datatype Event =
    | TaskChanged(room: Id, kind: ChangeKind, task: Option<Task>, taskId: Id)
    | ListCreated(room: Id, list: List)
    | ListDeleted(room: Id, listId: Id)

  /** The socket server a handler finds attached to the app. Every emit is
      appended to `sent`, so what was emitted, and after which state change,
      is visible to the proofs. A handler that finds no server gets `null`. */
  class Io {
    var sent: seq<Event>

    constructor ()
      ensures sent == []
    {
      sent := [];
    }

    method Emit(e: Event)
      modifies this
      ensures sent == old(sent) + [e]
    {
      sent := sent + [e];
    }
  }
}

=== FILE: task_proofs.dfy ===
/** What the position rules of controllers/taskController.js guarantee:
    appending and moving keep every list dense, deleting does not. */
module TaskProofs {
  import opened Model
  import opened Tasks

  /** An update request that defines nothing. */
  const NoEdit := TaskEdit(None, None, None, None, None, None)

  /** Appending at `NextPosition` to a dense list of n tasks gives the new task
      position n, and the list stays dense; every other dense list stays dense. */
  lemma AppendKeepsDense(ts: seq<Task>, t: Task)
    requires Dense(ts, t.listId) && t.position == NextPosition(ts, t.listId)
    ensures t.position == Count(ts, t.listId)
    ensures Count(ts + [t], t.listId) == Count(ts, t.listId) + 1
    ensures Dense(ts + [t], t.listId)
    ensures forall l :: l != t.listId && Dense(ts, l) ==> Dense(ts + [t], l)
  {
    NextPositionOfDense(ts, t.listId);
    AppendAtCountKeepsDense(ts, t);
  }

  /** On a dense list of n tasks the next position is n. */
  lemma NextPositionOfDense(ts: seq<Task>, l: Id)
    requires Dense(ts, l)
    ensures NextPosition(ts, l) == Count(ts, l)
  {
    var n := Count(ts, l);
    if n > 0 {
      DenseCovers(ts, l, n - 1);
    }
  }

  /** The density part of an append at position n. */
  lemma AppendAtCountKeepsDense(ts: seq<Task>, t: Task)
    requires Dense(ts, t.listId) && t.position == Count(ts, t.listId)
    ensures Count(ts + [t], t.listId) == Count(ts, t.listId) + 1
    ensures Dense(ts + [t], t.listId)
    ensures forall l :: l != t.listId && Dense(ts, l) ==> Dense(ts + [t], l)
  {
    var l, r := t.listId, ts + [t];
    CountAppend(ts, t, l);
    assert forall k :: 0 <= k < |ts| ==> r[k] == ts[k];
    forall l' | l' != l && Dense(ts, l') ensures Dense(r, l') {
      CountAppend(ts, t, l');
    }
  }

  /** The sibling shifts of `updateTask` never touch the moved task itself, so
      saving the in-memory document writes exactly `MovedRecord`. */
  lemma ShiftsSkipMovedTask(ts: seq<Task>, i: nat, e: TaskEdit)
    requires i < |ts|
    ensures |SiblingShifts(ts, i, e)| == |ts| && SiblingShifts(ts, i, e)[i] == ts[i]
    ensures forall k :: 0 <= k < |ts| ==>
      SiblingShifts(ts, i, e)[k].id == ts[k].id && SiblingShifts(ts, i, e)[k].listId == ts[k].listId
  {
  }

  /** Tasks outside the source and destination lists are left exactly as they were. */
  lemma UpdateTouchesOnlyItsLists(ts: seq<Task>, i: nat, e: TaskEdit)
    requires i < |ts|
    ensures |AfterUpdate(ts, i, e)| == |ts|
    ensures forall k :: 0 <= k < |ts| && k != i && ts[k].listId != ts[i].listId
                        && (e.listId.None? || ts[k].listId != e.listId.value) ==>
      AfterUpdate(ts, i, e)[k] == ts[k]
  {
  }

  /** With no list change and no new position, no task moves; only the given fields change. */
  lemma NoMoveKeepsPositions(ts: seq<Task>, i: nat, e: TaskEdit)
    requires i < |ts| && !IsCrossMove(ts[i], e) && !IsReorder(ts[i], e)
    ensures AfterUpdate(ts, i, e) == ts[i := EditFields(ts[i], e)]
    ensures forall k :: 0 <= k < |ts| ==>
      AfterUpdate(ts, i, e)[k].position == ts[k].position && AfterUpdate(ts, i, e)[k].listId == ts[k].listId
  {
  }

  /** A request that defines no field leaves the collection as it was. */
  lemma EmptyEditChangesNothing(ts: seq<Task>, i: nat)
    requires i < |ts|
    ensures AfterUpdate(ts, i, NoEdit) == ts
  {
    assert EditFields(ts[i], NoEdit) == ts[i];
  }

  /** Closing the gap: the task at `i` leaves list `src`, the siblings above it step down. */
  lemma CloseGapKeepsDense(ts: seq<Task>, r: seq<Task>, i: nat, src: Id)
    requires i < |ts| == |r| && ts[i].listId == src && r[i].listId != src && Dense(ts, src)
    requires forall k :: 0 <= k < |ts| && k != i ==> r[k].listId == ts[k].listId
    requires forall k :: 0 <= k < |ts| && k != i && ts[k].listId == src ==>
      r[k].position == if ts[k].position > ts[i].position then ts[k].position - 1 else ts[k].position
    ensures Count(r, src) == Count(ts, src) - 1 && Dense(r, src)
  {
    CountRelabel(ts, r, i, src);
    forall k | 0 <= k < |r| && r[k].listId == src
      ensures 0 <= r[k].position < Count(r, src)
    {
      assert k != i && ts[k].position != ts[i].position;
    }
    forall j, k | 0 <= j < |r| && 0 <= k < |r| && j != k && r[j].listId == src && r[k].listId == src
      ensures r[j].position != r[k].position
    {
      assert ts[j].position != ts[k].position;
    }
  }

  /** Opening a gap: the task at `i` enters list `dst` at `ins`, the tasks at or above `ins` step up. */
  lemma OpenGapKeepsDense(ts: seq<Task>, r: seq<Task>, i: nat, dst: Id, ins: int)
    requires i < |ts| == |r| && ts[i].listId != dst && Dense(ts, dst)
    requires 0 <= ins <= Count(ts, dst) && r[i].listId == dst && r[i].position == ins
    requires forall k :: 0 <= k < |ts| && k != i ==> r[k].listId == ts[k].listId
    requires forall k :: 0 <= k < |ts| && k != i && ts[k].listId == dst ==>
      r[k].position == if ts[k].position >= ins then ts[k].position + 1 else ts[k].position
    ensures Count(r, dst) == Count(ts, dst) + 1 && Dense(r, dst)
  {
    CountRelabel(ts, r, i, dst);
    forall j, k | 0 <= j < |r| && 0 <= k < |r| && j != k && r[j].listId == dst && r[k].listId == dst
      ensures r[j].position != r[k].position
    {
      if j != i && k != i {
        assert ts[j].position != ts[k].position;
      }
    }
  }

  /** A cross-list move between two dense lists, inserting at 0 .. |dest|,
      closes the gap in the source and opens one in the destination: both stay dense. */
  lemma CrossMoveKeepsDense(ts: seq<Task>, i: nat, e: TaskEdit)
    requires i < |ts| && IsCrossMove(ts[i], e)
    requires Dense(ts, ts[i].listId) && Dense(ts, e.listId.value)
    requires 0 <= InsertPosition(e) <= Count(ts, e.listId.value)
    ensures AfterUpdate(ts, i, e)[i].listId == e.listId.value
    ensures AfterUpdate(ts, i, e)[i].position == InsertPosition(e)
    ensures Count(AfterUpdate(ts, i, e), ts[i].listId) == Count(ts, ts[i].listId) - 1
    ensures Count(AfterUpdate(ts, i, e), e.listId.value) == Count(ts, e.listId.value) + 1
    ensures Dense(AfterUpdate(ts, i, e), ts[i].listId)
    ensures Dense(AfterUpdate(ts, i, e), e.listId.value)
  {
    var r := AfterUpdate(ts, i, e);
    CrossMoveRows(ts, i, e);
    CloseGapKeepsDense(ts, r, i, ts[i].listId);
    OpenGapKeepsDense(ts, r, i, e.listId.value, InsertPosition(e));
  }

  /** Row by row, what a cross-list move does to the other tasks of both lists. */
  lemma CrossMoveRows(ts: seq<Task>, i: nat, e: TaskEdit)
    requires i < |ts| && IsCrossMove(ts[i], e)
    ensures var r := AfterUpdate(ts, i, e);
      && |r| == |ts|
      && r[i].listId == e.listId.value && r[i].position == InsertPosition(e)
      && (forall k :: 0 <= k < |ts| && k != i ==> r[k].listId == ts[k].listId)
      && (forall k :: 0 <= k < |ts| && k != i && ts[k].listId == ts[i].listId ==>
            r[k].position == if ts[k].position > ts[i].position then ts[k].position - 1 else ts[k].position)
      && (forall k :: 0 <= k < |ts| && k != i && ts[k].listId == e.listId.value ==>
            r[k].position == if ts[k].position >= InsertPosition(e) then ts[k].position + 1 else ts[k].position)
  {
    var r := AfterUpdate(ts, i, e);
    var src, dst, was, ins := ts[i].listId, e.listId.value, ts[i].position, InsertPosition(e);
    assert forall k :: 0 <= k < |ts| && k != i ==>
      r[k] == Bump(Bump(ts[k], src, Above(was), -1), dst, AtLeast(ins), 1);
  }

  /** Shifting the window between the old and the new position of the task at `i` by one
      towards the old position, and putting the task at the new one, keeps list `l` dense. */
  lemma WindowShiftKeepsDense(ts: seq<Task>, r: seq<Task>, i: nat, l: Id, p: int)
    requires i < |ts| == |r| && ts[i].listId == l && r[i].listId == l && r[i].position == p
    requires Dense(ts, l) && 0 <= p < Count(ts, l)
    requires forall k :: 0 <= k < |ts| && k != i ==> r[k].listId == ts[k].listId
    requires forall k :: 0 <= k < |ts| && k != i && ts[k].listId == l ==>
      r[k].position ==
        if ts[i].position < ts[k].position <= p then ts[k].position - 1
        else if p <= ts[k].position < ts[i].position then ts[k].position + 1
        else ts[k].position
    ensures Count(r, l) == Count(ts, l) && Dense(r, l)
  {
    var was := ts[i].position;
    CountRelabel(ts, r, i, l);
    forall j, k | 0 <= j < |r| && 0 <= k < |r| && j != k && r[j].listId == l && r[k].listId == l
      ensures r[j].position != r[k].position
    {
      if j != i && k != i {
        assert ts[j].position != ts[k].position;
      } else if j == i {
        assert ts[k].position != was;
      } else {
        assert ts[j].position != was;
      }
    }
    forall k | 0 <= k < |r| && r[k].listId == l
      ensures 0 <= r[k].position < Count(r, l)
    {
      if k != i {
        assert ts[k].position != was;
      }
    }
  }

  /** A same-list reorder to a position 0 .. n-1 of a dense list keeps it dense,
      keeps its size and so its set of positions, and puts the task where asked. */
  lemma ReorderKeepsDense(ts: seq<Task>, i: nat, e: TaskEdit)
    requires i < |ts| && IsReorder(ts[i], e)
    requires Dense(ts, ts[i].listId) && 0 <= e.position.value < Count(ts, ts[i].listId)
    ensures AfterUpdate(ts, i, e)[i].listId == ts[i].listId
    ensures AfterUpdate(ts, i, e)[i].position == e.position.value
    ensures Count(AfterUpdate(ts, i, e), ts[i].listId) == Count(ts, ts[i].listId)
    ensures Dense(AfterUpdate(ts, i, e), ts[i].listId)
    ensures PosSet(AfterUpdate(ts, i, e), ts[i].listId) == PosSet(ts, ts[i].listId)
  {
    var r, l := AfterUpdate(ts, i, e), ts[i].listId;
    ReorderRows(ts, i, e);
    WindowShiftKeepsDense(ts, r, i, l, e.position.value);
    DensePositions(ts, l);
    DensePositions(r, l);
  }

  /** Row by row, what a same-list reorder does to the other tasks. */
  lemma ReorderRows(ts: seq<Task>, i: nat, e: TaskEdit)
    requires i < |ts| && IsReorder(ts[i], e)
    ensures var r, p := AfterUpdate(ts, i, e), e.position.value;
      && |r| == |ts|
      && r[i].listId == ts[i].listId && r[i].position == p
      && (forall k :: 0 <= k < |ts| && k != i ==> r[k].listId == ts[k].listId)
      && (forall k :: 0 <= k < |ts| && k != i && ts[k].listId == ts[i].listId ==>
            r[k].position ==
              if ts[i].position < ts[k].position <= p then ts[k].position - 1
              else if p <= ts[k].position < ts[i].position then ts[k].position + 1
              else ts[k].position)
  {
    var r := AfterUpdate(ts, i, e);
    var l, was, p := ts[i].listId, ts[i].position, e.position.value;
    if p > was {
      assert forall k :: 0 <= k < |ts| && k != i ==> r[k] == Bump(ts[k], l, AboveUpTo(was, p), -1);
    } else {
      assert forall k :: 0 <= k < |ts| && k != i ==> r[k] == Bump(ts[k], l, FromBelow(p, was), 1);
    }
  }

  /** A same-list reorder of a dense list keeps the relative order of the other tasks. */
  lemma ReorderKeepsRelativeOrder(ts: seq<Task>, i: nat, e: TaskEdit, j: nat, k: nat)
    requires i < |ts| && IsReorder(ts[i], e) && Dense(ts, ts[i].listId)
    requires j < |ts| && k < |ts| && j != i && k != i
    requires ts[j].listId == ts[i].listId && ts[k].listId == ts[i].listId
    ensures ts[j].position < ts[k].position <==>
      AfterUpdate(ts, i, e)[j].position < AfterUpdate(ts, i, e)[k].position
  {
    var l, was := ts[i].listId, ts[i].position;
    assert ts[j].position != was && ts[k].position != was;
    if j != k {
      assert ts[j].position != ts[k].position;
    }
  }

  /** Deleting from a dense list keeps it dense exactly when the deleted task
      held the last position: the handler does not close the gap. */
  lemma DeleteKeepsDenseIffLast(ts: seq<Task>, i: nat)
    requires i < |ts| && Dense(ts, ts[i].listId)
    ensures Count(AfterDelete(ts, i), ts[i].listId) == Count(ts, ts[i].listId) - 1
    ensures Dense(AfterDelete(ts, i), ts[i].listId) <==> ts[i].position == Count(ts, ts[i].listId) - 1
  {
    var r, l := AfterDelete(ts, i), ts[i].listId;
    CountRemove(ts, i, l);
    AfterDeleteRows(ts, i);
    if ts[i].position != Count(ts, l) - 1 {
      RemovingBeforeLastLeavesGap(ts, r, i);
    } else {
      RemovingLastKeepsDense(ts, r, i);
    }
  }

  /** The task that held the last position survives the removal, beyond the new size. */
  lemma RemovingBeforeLastLeavesGap(ts: seq<Task>, r: seq<Task>, i: nat)
    requires i < |ts| && Dense(ts, ts[i].listId) && ts[i].position != Count(ts, ts[i].listId) - 1
    requires |r| == |ts| - 1 && forall k :: 0 <= k < |r| ==> r[k] == ts[Skip(k, i)]
    requires Count(r, ts[i].listId) == Count(ts, ts[i].listId) - 1
    ensures !Dense(r, ts[i].listId)
  {
    var l, n := ts[i].listId, Count(ts, ts[i].listId);
    DenseCovers(ts, l, n - 1);
    var k :| 0 <= k < |ts| && ts[k].listId == l && ts[k].position == n - 1;
    var k' := if k < i then k else k - 1;
    assert Skip(k', i) == k;
    assert r[k'].listId == l && r[k'].position == n - 1;
  }

  /** Removing the task at the last position leaves 0 .. n-2, each taken once. */
  lemma RemovingLastKeepsDense(ts: seq<Task>, r: seq<Task>, i: nat)
    requires i < |ts| && Dense(ts, ts[i].listId) && ts[i].position == Count(ts, ts[i].listId) - 1
    requires |r| == |ts| - 1 && forall k :: 0 <= k < |r| ==> r[k] == ts[Skip(k, i)]
    requires Count(r, ts[i].listId) == Count(ts, ts[i].listId) - 1
    ensures Dense(r, ts[i].listId)
  {
    var l, n := ts[i].listId, Count(ts, ts[i].listId);
    forall k | 0 <= k < |r| && r[k].listId == l ensures 0 <= r[k].position < n - 1 {
      assert Skip(k, i) != i;
    }
    forall j, k | 0 <= j < |r| && 0 <= k < |r| && j != k && r[j].listId == l && r[k].listId == l
      ensures r[j].position != r[k].position
    {
      assert Skip(j, i) != Skip(k, i);
    }
  }

  /** A concrete gap: deleting the first of two tasks leaves the other at position 1 of a one-task list. */
  lemma DeleteLeavesGap()
    ensures var a := Task(1, 7, 3, "a", None, None, None, 0, None, 9);
            var b := Task(2, 7, 3, "b", None, None, None, 1, None, 9);
            Dense([a, b], 3) && AfterDelete([a, b], 0) == [b] && !Dense([b], 3)
  {
    var a := Task(1, 7, 3, "a", None, None, None, 0, None, 9);
    var b := Task(2, 7, 3, "b", None, None, None, 1, None, 9);
    assert [a, b][..1] == [a];
    assert Count([a], 3) == 1;
    assert Count([b], 3) == 1 by { assert [b][..0] == []; }
  }

  /** Deleting a task of another list leaves list `l`'s density as it was. */
  lemma DeleteElsewhereKeepsDense(ts: seq<Task>, i: nat, l: Id)
    requires i < |ts| && ts[i].listId != l && Dense(ts, l)
    ensures Dense(AfterDelete(ts, i), l)
  {
    CountRemove(ts, i, l);
    AfterDeleteRows(ts, i);
    RemovingElsewhereKeepsDense(ts, AfterDelete(ts, i), i, l);
  }

  lemma RemovingElsewhereKeepsDense(ts: seq<Task>, r: seq<Task>, i: nat, l: Id)
    requires i < |ts| && ts[i].listId != l && Dense(ts, l)
    requires |r| == |ts| - 1 && forall k :: 0 <= k < |r| ==> r[k] == ts[Skip(k, i)]
    requires Count(r, l) == Count(ts, l)
    ensures Dense(r, l)
  {
    forall j, k | 0 <= j < |r| && 0 <= k < |r| && j != k && r[j].listId == l && r[k].listId == l
      ensures r[j].position != r[k].position
    {
      assert Skip(j, i) != Skip(k, i);
    }
  }

  // ---------------------------------------------------------------------
  // Every list stays dense, and a failed save tears one
  // ---------------------------------------------------------------------

  /** Every list of the collection is dense. */
  ghost predicate AllDense(ts: seq<Task>) {
    forall l :: Dense(ts, l)
  }

  /** The requested position is one the destination list can take: 0 .. n for a
      cross-list move, 0 .. n-1 for a reorder (the handler itself does not check this). */
  predicate MoveInBounds(ts: seq<Task>, i: nat, e: TaskEdit)
    requires i < |ts|
  {
    if IsCrossMove(ts[i], e) then 0 <= InsertPosition(e) <= Count(ts, e.listId.value)
    else if IsReorder(ts[i], e) then 0 <= e.position.value < Count(ts, ts[i].listId)
    else true
  }

  /** List `l` stays dense when the same rows belong to it and keep their positions. */
  lemma SameViewKeepsDense(ts: seq<Task>, r: seq<Task>, l: Id)
    requires |ts| == |r| && Dense(ts, l)
    requires forall k :: 0 <= k < |ts| ==> (ts[k].listId == l <==> r[k].listId == l)
    requires forall k :: 0 <= k < |ts| && ts[k].listId == l ==> r[k].position == ts[k].position
    ensures Dense(r, l)
  {
    CountSameLists(ts, r, l);
  }

  /** A move whose position is in bounds keeps every dense list of the collection dense. */
  lemma UpdateKeepsAllDense(ts: seq<Task>, i: nat, e: TaskEdit)
    requires i < |ts| && AllDense(ts) && MoveInBounds(ts, i, e)
    ensures AllDense(AfterUpdate(ts, i, e))
  {
    var r, src := AfterUpdate(ts, i, e), ts[i].listId;
    ShiftsSkipMovedTask(ts, i, e);
    UpdateTouchesOnlyItsLists(ts, i, e);
    forall l ensures Dense(r, l) {
      assert Dense(ts, l);
      if !IsCrossMove(ts[i], e) && !IsReorder(ts[i], e) {
        NoMoveKeepsPositions(ts, i, e);
        SameViewKeepsDense(ts, r, l);
      } else if IsCrossMove(ts[i], e) && (l == src || l == e.listId.value) {
        assert Dense(ts, e.listId.value);
        CrossMoveKeepsDense(ts, i, e);
      } else if IsReorder(ts[i], e) && l == src {
        ReorderKeepsDense(ts, i, e);
      } else {
        assert r[i].listId != l && ts[i].listId != l;
        SameViewKeepsDense(ts, r, l);
      }
    }
  }

  /** As written: renaming a task to "" while moving it down its list fails the
      save after the siblings were already shifted, and the list is left with two
      tasks at position 0. */
  lemma FailedSaveTearsList()
    ensures var a := Task(1, 7, 3, "a", None, None, None, 0, None, 9);
            var b := Task(2, 7, 3, "b", None, None, None, 1, None, 9);
            var e := TaskEdit(Some(""), None, None, None, None, Some(1));
            && Dense([a, b], 3)
            && !Saveable(MovedRecord(a, e))
            && SiblingShifts([a, b], 0, e) == [a, b.(position := 0)]
            && !Dense(SiblingShifts([a, b], 0, e), 3)
  {
    var a := Task(1, 7, 3, "a", None, None, None, 0, None, 9);
    var b := Task(2, 7, 3, "b", None, None, None, 1, None, 9);
    var e := TaskEdit(Some(""), None, None, None, None, Some(1));
    assert [a, b][..1] == [a] && [a][..0] == [];
    assert Count([a], 3) == 1;
    assert Count([a, b], 3) == 2;
    var torn := SiblingShifts([a, b], 0, e);
    assert torn == [a, b.(position := 0)];
    assert torn[0].position == torn[1].position;
  }

  /** Corrected `updateTask`: validate the saved document first, and only then
      shift the siblings and save, so a rejected request changes nothing. */
  function CheckedUpdate(ts: seq<Task>, i: nat, e: TaskEdit): (r: Reply<seq<Task>>)
    requires i < |ts|
    ensures r.Fail? <==> !Saveable(MovedRecord(ts[i], e))
    ensures r.Fail? ==> r.code == ServerError
    ensures r.Done? ==> |r.body| == |ts| && r.body[i] == MovedRecord(ts[i], e)
  {
    if !Saveable(MovedRecord(ts[i], e)) then Fail(ServerError)
    else Done(AfterUpdate(ts, i, e))
  }

  /** The collection after a request: the new one on success, the old one on failure. */
  function Committed(ts: seq<Task>, r: Reply<seq<Task>>): seq<Task> {
    if r.Done? then r.body else ts
  }

  /** With the check first, every request, accepted or rejected, leaves every list dense. */
  lemma CheckedUpdateKeepsAllDense(ts: seq<Task>, i: nat, e: TaskEdit)
    requires i < |ts| && AllDense(ts) && MoveInBounds(ts, i, e)
    ensures AllDense(Committed(ts, CheckedUpdate(ts, i, e)))
    ensures CheckedUpdate(ts, i, e).Fail? ==> Committed(ts, CheckedUpdate(ts, i, e)) == ts
  {
    if Saveable(MovedRecord(ts[i], e)) {
      UpdateKeepsAllDense(ts, i, e);
    }
  }

  /** As written, a plain member deletes a task somebody else created, which the
      admin-or-creator rule refuses. */
  lemma MemberDeletesOthersTask(ts: seq<Task>, boardId: Id, taskId: Id, actor: Id)
    requires FindTask(ts, taskId, boardId).Some?
    requires ts[FindTask(ts, taskId, boardId).value].createdBy != actor
    ensures DeleteReply(ts, boardId, taskId, Member, actor) == Done(())
    ensures GuardedDeleteReply(ts, boardId, taskId, Member, actor) == Fail(Forbidden)
  {
  }

  /** With one row per id, the guarded delete succeeds exactly when the board has
      the task and the caller is an admin or its creator; otherwise it answers as
      the unguarded one does, or refuses with 403. */
  lemma GuardedDeleteIffAllowed(ts: seq<Task>, boardId: Id, taskId: Id, role: Role, actor: Id)
    requires UniqueIds(ts)
    ensures GuardedDeleteReply(ts, boardId, taskId, role, actor).Done? <==>
      exists k :: 0 <= k < |ts| && ts[k].id == taskId && ts[k].boardId == boardId && MayDeleteTask(ts[k], role, actor)
    ensures GuardedDeleteReply(ts, boardId, taskId, role, actor) != Fail(Forbidden) ==>
      GuardedDeleteReply(ts, boardId, taskId, role, actor) == DeleteReply(ts, boardId, taskId, role, actor)
  {
    var found := FindTask(ts, taskId, boardId);
    if k :| 0 <= k < |ts| && ts[k].id == taskId && ts[k].boardId == boardId && MayDeleteTask(ts[k], role, actor) {
      assert found.value == k;
    }
  }

  /** The input that shows it: user 9, a plain member, deletes the task user 5 created. */
  lemma MemberDeletesOthersTaskExample()
    ensures var ts := [Task(1, 2, 3, "write", None, None, None, 0, None, 5)];
            DeleteReply(ts, 2, 1, Member, 9) == Done(()) && GuardedDeleteReply(ts, 2, 1, Member, 9) == Fail(Forbidden)
  {
    var ts := [Task(1, 2, 3, "write", None, None, None, 0, None, 5)];
    MemberDeletesOthersTask(ts, 2, 1, 9);
  }
}

=== FILE: tasks.dfy ===
/** The task position engine of controllers/taskController.js: appending a
    task at the end of its list, moving it to another list or to another
    place in its list by shifting the positions of its siblings, editing
    its fields, deleting it, and grouping a board's tasks by list. */
module Tasks {
  import opened Model

  // ---------------------------------------------------------------------
  // The position filters handed to `Task.updateMany`
  // ---------------------------------------------------------------------

  /** The four position filters the handler uses, in Mongo's own terms. */
  datatype Range =
    | Above(gt: int)                // { $gt: gt }
    | AtLeast(gte: int)             // { $gte: gte }
    | AboveUpTo(gt: int, lte: int)  // { $gt: gt, $lte: lte }
    | FromBelow(gte: int, lt: int)  // { $gte: gte, $lt: lt }

  predicate InRange(r: Range, p: int) {
    match r
    case Above(a) => a < p
    case AtLeast(a) => a <= p
    case AboveUpTo(a, b) => a < p <= b
    case FromBelow(a, b) => a <= p < b
  }

  /** The effect on one record of
      `updateMany({ listId: l, position: r }, { $inc: { position: delta } })`. */
  function Bump(t: Task, l: Id, r: Range, delta: int): Task {
    if t.listId == l && InRange(r, t.position) then t.(position := t.position + delta) else t
  }

  /** The same `updateMany` applied to the whole collection. */
  function Shifted(ts: seq<Task>, l: Id, r: Range, delta: int): seq<Task> {
    seq(|ts|, k requires 0 <= k < |ts| => Bump(ts[k], l, r, delta))
  }

  // ---------------------------------------------------------------------
  // Counting and density
  // ---------------------------------------------------------------------

  /** The number of tasks of list `l`. */
  function Count(ts: seq<Task>, l: Id): nat {
    if ts == [] then 0
    else Count(ts[..|ts| - 1], l) + (if ts[|ts| - 1].listId == l then 1 else 0)
  }

  /** No two tasks of list `l` share a position. */
  predicate Distinct(ts: seq<Task>, l: Id) {
    forall j, k :: 0 <= j < |ts| && 0 <= k < |ts| && j != k && ts[j].listId == l && ts[k].listId == l ==>
      ts[j].position != ts[k].position
  }

  /** The positions of list `l` are exactly 0 .. n-1, where n is the size of the list
      (distinct and in range; `DensePositions` shows that this covers the whole range). */
  predicate Dense(ts: seq<Task>, l: Id) {
    && (forall k :: 0 <= k < |ts| && ts[k].listId == l ==> 0 <= ts[k].position < Count(ts, l))
    && Distinct(ts, l)
  }

  /** The set of positions taken in list `l`. */
  function PosSet(ts: seq<Task>, l: Id): (s: set<int>)
    ensures forall k :: 0 <= k < |ts| && ts[k].listId == l ==> ts[k].position in s
    ensures forall q :: q in s ==> exists k :: 0 <= k < |ts| && ts[k].listId == l && ts[k].position == q
  {
    if ts == [] then {}
    else
      var last := ts[|ts| - 1];
      PosSet(ts[..|ts| - 1], l) + (if last.listId == l then {last.position} else {})
  }

  /** The integers 0 .. n-1. */
  function Interval(n: nat): (s: set<int>)
    ensures forall p :: p in s <==> 0 <= p < n
  {
    if n == 0 then {} else Interval(n - 1) + {n - 1}
  }

  lemma {:induction false} CountSameLists(a: seq<Task>, b: seq<Task>, l: Id)
    requires |a| == |b|
    requires forall k :: 0 <= k < |a| ==> (a[k].listId == l <==> b[k].listId == l)
    ensures Count(a, l) == Count(b, l)
  {
    if a != [] {
      CountSameLists(a[..|a| - 1], b[..|b| - 1], l);
    }
  }

  lemma {:induction false} CountUpdate(ts: seq<Task>, i: nat, x: Task, l: Id)
    requires i < |ts|
    ensures Count(ts[i := x], l) ==
      Count(ts, l) - (if ts[i].listId == l then 1 else 0) + (if x.listId == l then 1 else 0)
  {
    var n := |ts|;
    if i == n - 1 {
      assert ts[i := x][..n - 1] == ts[..n - 1];
    } else {
      assert ts[i := x][..n - 1] == ts[..n - 1][i := x];
      CountUpdate(ts[..n - 1], i, x, l);
    }
  }

  /** Counting after a change that keeps every list id except, possibly, the one at `i`. */
  lemma CountRelabel(ts: seq<Task>, r: seq<Task>, i: nat, l: Id)
    requires i < |ts| == |r|
    requires forall k :: 0 <= k < |ts| && k != i ==> r[k].listId == ts[k].listId
    ensures Count(r, l) ==
      Count(ts, l) - (if ts[i].listId == l then 1 else 0) + (if r[i].listId == l then 1 else 0)
  {
    CountSameLists(r, ts[i := r[i]], l);
    CountUpdate(ts, i, r[i], l);
  }

  lemma {:induction false} CountRemove(ts: seq<Task>, i: nat, l: Id)
    requires i < |ts|
    ensures Count(ts[..i] + ts[i + 1..], l) == Count(ts, l) - (if ts[i].listId == l then 1 else 0)
  {
    var n := |ts|;
    if i == n - 1 {
      assert ts[..i] + ts[i + 1..] == ts[..n - 1];
    } else {
      var p := ts[..n - 1];
      assert (ts[..i] + ts[i + 1..])[..n - 2] == p[..i] + p[i + 1..];
      CountRemove(p, i, l);
    }
  }

  lemma CountAppend(ts: seq<Task>, x: Task, l: Id)
    ensures Count(ts + [x], l) == Count(ts, l) + (if x.listId == l then 1 else 0)
  {
    assert (ts + [x])[..|ts|] == ts;
  }

  lemma DistinctPrefix(ts: seq<Task>, l: Id)
    requires ts != [] && Distinct(ts, l)
    ensures Distinct(ts[..|ts| - 1], l)
  {
    var p := ts[..|ts| - 1];
    forall j, k | 0 <= j < |p| && 0 <= k < |p| && j != k && p[j].listId == l && p[k].listId == l
      ensures p[j].position != p[k].position
    {
      assert p[j] == ts[j] && p[k] == ts[k];
    }
  }

  lemma LastPositionIsNew(ts: seq<Task>, l: Id)
    requires ts != [] && Distinct(ts, l) && ts[|ts| - 1].listId == l
    ensures ts[|ts| - 1].position !in PosSet(ts[..|ts| - 1], l)
  {
  }

  lemma {:induction false} PosSetSize(ts: seq<Task>, l: Id)
    requires Distinct(ts, l)
    ensures |PosSet(ts, l)| == Count(ts, l)
  {
    if ts != [] {
      DistinctPrefix(ts, l);
      PosSetSize(ts[..|ts| - 1], l);
      if ts[|ts| - 1].listId == l {
        LastPositionIsNew(ts, l);
      }
    }
  }

  lemma {:induction false} IntervalSize(n: nat)
    ensures |Interval(n)| == n
  {
    if n > 0 {
      var below := Interval(n - 1);
      IntervalSize(n - 1);
      assert n - 1 !in below;
      assert |below + {n - 1}| == |below| + 1;
    }
  }

  lemma SubsetOfSameSize(a: set<int>, b: set<int>)
    requires a <= b && |a| == |b|
    ensures a == b
  {
    var d := b - a;
    assert b == a + d && a * d == {};
  }

  /** Pigeonhole: a dense list takes every position 0 .. n-1, each exactly once. */
  lemma DensePositions(ts: seq<Task>, l: Id)
    requires Dense(ts, l)
    ensures PosSet(ts, l) == Interval(Count(ts, l))
  {
    var n := Count(ts, l);
    PosSetSize(ts, l);
    IntervalSize(n);
    SubsetOfSameSize(PosSet(ts, l), Interval(n));
  }

  lemma DenseCovers(ts: seq<Task>, l: Id, p: int)
    requires Dense(ts, l) && 0 <= p < Count(ts, l)
    ensures exists k :: 0 <= k < |ts| && ts[k].listId == l && ts[k].position == p
  {
    DensePositions(ts, l);
    assert p in Interval(Count(ts, l));
  }

  // ---------------------------------------------------------------------
  // Lookups
  // ---------------------------------------------------------------------

  /** `Task.findOne({ listId }).sort("-position")`: the highest position in list `l`. */
  function MaxPosition(ts: seq<Task>, l: Id): (m: Option<int>)
    ensures m.None? <==> forall k :: 0 <= k < |ts| ==> ts[k].listId != l
    ensures m.Some? ==> exists k :: 0 <= k < |ts| && ts[k].listId == l && ts[k].position == m.value
    ensures m.Some? ==> forall k :: 0 <= k < |ts| && ts[k].listId == l ==> ts[k].position <= m.value
  {
    if ts == [] then None
    else
      var rest := MaxPosition(ts[..|ts| - 1], l);
      var t := ts[|ts| - 1];
      if t.listId != l then rest
      else if rest.Some? && t.position <= rest.value then rest
      else Some(t.position)
  }

  /** The position `createTask` gives a new task of list `l`: above every position
      of the list, and right above one of them unless the list is empty. */
  function NextPosition(ts: seq<Task>, l: Id): (r: int)
    ensures forall k :: 0 <= k < |ts| && ts[k].listId == l ==> ts[k].position < r
    ensures (forall k :: 0 <= k < |ts| ==> ts[k].listId != l) ==> r == 0
    ensures (exists k :: 0 <= k < |ts| && ts[k].listId == l) ==>
      exists k :: 0 <= k < |ts| && ts[k].listId == l && ts[k].position == r - 1
  {
    match MaxPosition(ts, l)
    case Some(m) => m + 1
    case None => 0
  }

  /** `Task.findOne({ _id: id, boardId })`: the index of the first match. */
  function FindTask(ts: seq<Task>, id: Id, boardId: Id): (r: Option<nat>)
    ensures r.Some? ==> r.value < |ts| && ts[r.value].id == id && ts[r.value].boardId == boardId
    ensures r.Some? ==> forall k :: 0 <= k < r.value ==> !(ts[k].id == id && ts[k].boardId == boardId)
    ensures r.None? <==> forall k :: 0 <= k < |ts| ==> !(ts[k].id == id && ts[k].boardId == boardId)
  {
    if ts == [] then None
    else if ts[0].id == id && ts[0].boardId == boardId then Some(0)
    else
      match FindTask(ts[1..], id, boardId)
      case Some(j) => Some(j + 1)
      case None => None
  }

  /** `Task.find({ boardId })`, in store order. */
  function OfBoard(ts: seq<Task>, boardId: Id): (r: seq<Task>)
    ensures forall t :: t in r <==> t in ts && t.boardId == boardId
  {
    if ts == [] then []
    else
      var last := ts[|ts| - 1];
      OfBoard(ts[..|ts| - 1], boardId) + (if last.boardId == boardId then [last] else [])
  }

  /** The tasks of list `l`, in order. */
  function OfList(ts: seq<Task>, l: Id): (r: seq<Task>)
    ensures forall t :: t in r <==> t in ts && t.listId == l
  {
    if ts == [] then []
    else
      var last := ts[|ts| - 1];
      OfList(ts[..|ts| - 1], l) + (if last.listId == l then [last] else [])
  }

  /** `grouped` holds, for each list id with tasks in `s`, exactly that list's tasks of `s`, in order. */
  ghost predicate GroupsOf(grouped: map<Id, seq<Task>>, s: seq<Task>) {
    && (forall l :: l in grouped <==> OfList(s, l) != [])
    && (forall l :: l in grouped ==> grouped[l] == OfList(s, l))
  }

  /** The dictionary the `forEach` of `getTasks` builds from `s`: each task is pushed
      onto the group of its list, which is created when missing. */
  function Grouped(s: seq<Task>): map<Id, seq<Task>> {
    if s == [] then map[]
    else
      var g, x := Grouped(s[..|s| - 1]), s[|s| - 1];
      g[x.listId := (if x.listId in g then g[x.listId] else []) + [x]]
  }

  /** The groups are exactly the non-empty per-list subsequences. */
  lemma {:induction false} GroupedByList(s: seq<Task>)
    ensures GroupsOf(Grouped(s), s)
  {
    if s != [] {
      var p, x := s[..|s| - 1], s[|s| - 1];
      GroupedByList(p);
      var g, g' := Grouped(p), Grouped(s);
      forall l ensures (l in g' <==> OfList(s, l) != []) && (l in g' ==> g'[l] == OfList(s, l)) {
        assert OfList(s, l) == OfList(p, l) + (if x.listId == l then [x] else []);
        if l == x.listId {
          assert (if l in g then g[l] else []) == OfList(p, l);
        }
      }
    }
  }

  /** The groups of a board's tasks cover every task of the board, each in its own list's group. */
  lemma GroupsCoverBoard(ts: seq<Task>, boardId: Id, grouped: map<Id, seq<Task>>)
    requires GroupsOf(grouped, OfBoard(ts, boardId))
    ensures forall t :: t in ts && t.boardId == boardId ==> t.listId in grouped && t in grouped[t.listId]
    ensures forall l, t :: l in grouped && t in grouped[l] ==> t.listId == l && t in ts && t.boardId == boardId
  {
    var found := OfBoard(ts, boardId);
    forall t | t in ts && t.boardId == boardId
      ensures t.listId in grouped && t in grouped[t.listId]
    {
      assert t in found;
      assert t in OfList(found, t.listId);
    }
  }

  // ---------------------------------------------------------------------
  // The update rules
  // ---------------------------------------------------------------------

  /** A creation request; `None` is a field the request leaves undefined. */
  datatype NewTask = NewTask(
    title: Option<string>,
    description: Option<string>,
    deadline: Option<Millis>,
    attachment: Option<string>,
    listId: Option<Id>)

  /** An update request; `None` is a field the request leaves undefined. */
  datatype TaskEdit = TaskEdit(
    title: Option<string>,
    description: Option<string>,
    deadline: Option<Millis>,
    attachment: Option<string>,
    listId: Option<Id>,
    position: Option<int>)

  /** Schema validation on save: `title` is a required string, so it must be non-empty. */
  predicate Saveable(t: Task) {
    |t.title| > 0
  }

  /** The request names a list other than the task's own. */
  predicate IsCrossMove(t: Task, e: TaskEdit) {
    e.listId.Some? && e.listId.value != t.listId
  }

  /** The request keeps the list and names a different position. */
  predicate IsReorder(t: Task, e: TaskEdit) {
    !IsCrossMove(t, e) && e.position.Some? && e.position.value != t.position
  }

  /** Where a cross-list move inserts the task: the given position, or 0. */
  function InsertPosition(e: TaskEdit): int {
    if e.position.Some? then e.position.value else 0
  }

  /** Overwrite the fields the request defines, and only those. */
  function EditFields(t: Task, e: TaskEdit): Task {
    t.(title := if e.title.Some? then e.title.value else t.title,
       description := if e.description.Some? then e.description else t.description,
       deadline := if e.deadline.Some? then e.deadline else t.deadline,
       attachment := if e.attachment.Some? then e.attachment else t.attachment)
  }

  /** The in-memory task document `updateTask` saves: new list and position, then the fields. */
  function MovedRecord(t: Task, e: TaskEdit): Task {
    if IsCrossMove(t, e) then EditFields(t.(position := InsertPosition(e), listId := e.listId.value), e)
    else if IsReorder(t, e) then EditFields(t.(position := e.position.value), e)
    else EditFields(t, e)
  }

  /** The collection after the sibling shifts of `updateTask`, before the task is saved. */
  function SiblingShifts(ts: seq<Task>, i: nat, e: TaskEdit): seq<Task>
    requires i < |ts|
  {
    var t := ts[i];
    if IsCrossMove(t, e) then
      Shifted(Shifted(ts, t.listId, Above(t.position), -1), e.listId.value, AtLeast(InsertPosition(e)), 1)
    else if IsReorder(t, e) then
      var p := e.position.value;
      if p > t.position then Shifted(ts, t.listId, AboveUpTo(t.position, p), -1)
      else Shifted(ts, t.listId, FromBelow(p, t.position), 1)
    else ts
  }

  /** The collection after a successful `updateTask` of the task at index `i`. */
  function AfterUpdate(ts: seq<Task>, i: nat, e: TaskEdit): seq<Task>
    requires i < |ts|
  {
    SiblingShifts(ts, i, e)[i := MovedRecord(ts[i], e)]
  }

  /** The collection after `deleteTask` of the task at index `i`: that row goes, nothing else moves. */
  function AfterDelete(ts: seq<Task>, i: nat): seq<Task>
    requires i < |ts|
  {
    ts[..i] + ts[i + 1..]
  }

  /** The answer of `deleteTask` as written: 404 when the board has no such task,
      success otherwise. The caller's `role` and id `actor` are not consulted. */
  function DeleteReply(ts: seq<Task>, boardId: Id, taskId: Id, role: Role, actor: Id): (r: Reply<()>)
    ensures r.Fail? ==> r.code == NotFound
    ensures r.Done? <==> exists k :: 0 <= k < |ts| && ts[k].id == taskId && ts[k].boardId == boardId
  {
    if FindTask(ts, taskId, boardId).None? then Fail(NotFound) else Done(())
  }

  /** The rule the task routes announce for deletion: an admin, or the task's creator. */
  predicate MayDeleteTask(t: Task, role: Role, actor: Id) {
    role == Admin || t.createdBy == actor
  }

  /** The answer of a `deleteTask` that enforces that rule, in the shape of
      `deleteList`: 404, then 403 unless the caller may delete the task. */
  function GuardedDeleteReply(ts: seq<Task>, boardId: Id, taskId: Id, role: Role, actor: Id): (r: Reply<()>)
    ensures r.Fail? ==> r.code == NotFound || r.code == Forbidden
    ensures r == Fail(NotFound) <==> forall k :: 0 <= k < |ts| ==> !(ts[k].id == taskId && ts[k].boardId == boardId)
    ensures r.Done? ==> exists k :: 0 <= k < |ts| && ts[k].id == taskId && ts[k].boardId == boardId
                                    && MayDeleteTask(ts[k], role, actor)
    ensures r == Fail(Forbidden) ==> exists k :: 0 <= k < |ts| && ts[k].id == taskId && ts[k].boardId == boardId
                                                && !MayDeleteTask(ts[k], role, actor)
  {
    match FindTask(ts, taskId, boardId)
    case None => Fail(NotFound)
    case Some(i) => if MayDeleteTask(ts[i], role, actor) then Done(()) else Fail(Forbidden)
  }

  // ---------------------------------------------------------------------
  // The store
  // ---------------------------------------------------------------------

  predicate IdsBelow(ts: seq<Task>, n: Id) {
    forall k :: 0 <= k < |ts| ==> ts[k].id < n
  }

  predicate UniqueIds(ts: seq<Task>) {
    forall j, k :: 0 <= j < |ts| && 0 <= k < |ts| && j != k ==> ts[j].id != ts[k].id
  }

  /** The index of the row of `ts` that row `k` of the collection after deleting row `i` holds. */
  function Skip(k: nat, i: nat): nat {
    if k < i then k else k + 1
  }

  lemma AfterDeleteRows(ts: seq<Task>, i: nat)
    requires i < |ts|
    ensures |AfterDelete(ts, i)| == |ts| - 1
    ensures forall k :: 0 <= k < |ts| - 1 ==> AfterDelete(ts, i)[k] == ts[Skip(k, i)]
  {
  }

  lemma AfterDeleteKeepsIds(ts: seq<Task>, i: nat, n: Id)
    requires i < |ts| && IdsBelow(ts, n) && UniqueIds(ts)
    ensures IdsBelow(AfterDelete(ts, i), n) && UniqueIds(AfterDelete(ts, i))
  {
    AfterDeleteRows(ts, i);
    var r := AfterDelete(ts, i);
    forall j, k | 0 <= j < |r| && 0 <= k < |r| && j != k ensures r[j].id != r[k].id {
      assert Skip(j, i) != Skip(k, i);
    }
  }

  /** The Task collection. `nextId` stands for the generation of fresh ObjectIds. */
  class TaskStore {
    var tasks: seq<Task>
    var nextId: Id

    /** Every id was handed out before, and no two tasks share one. */
    ghost predicate Valid()
      reads this
    {
      IdsBelow(tasks, nextId) && UniqueIds(tasks)
    }

    constructor ()
      ensures Valid() && tasks == []
    {
      tasks := [];
      nextId := 0;
    }

    /** `Task.updateMany({ listId: l, position: r }, { $inc: { position: delta } })`. */
    method UpdateMany(l: Id, r: Range, delta: int)
      requires Valid()
      modifies this
      ensures Valid() && nextId == old(nextId)
      ensures tasks == Shifted(old(tasks), l, r, delta)
    {
      tasks := Shifted(tasks, l, r, delta);
    }

    /** `task.save()` of a loaded task document: its row is replaced, no other row changes. */
    method Save(i: nat, task: Task)
      requires Valid() && i < |tasks| && task.id == tasks[i].id
      modifies this
      ensures Valid() && nextId == old(nextId)
      ensures tasks == old(tasks)[i := task]
    {
      tasks := tasks[i := task];
    }

    /** `createTask`: append a task at the end of its list on board `boardId`. */
    method CreateTask(boardId: Id, actor: Id, body: NewTask, io: Io?) returns (r: Reply<Task>)
      requires Valid()
      modifies this, io
      ensures Valid()
      ensures body.listId.None? ==> r == Fail(BadRequest)
      ensures body.listId.Some? && (body.title.None? || body.title.value == []) ==> r == Fail(ServerError)
      ensures r.Fail? ==> tasks == old(tasks) && (io != null ==> io.sent == old(io.sent))
      ensures body.listId.Some? && body.title.Some? && body.title.value != [] ==>
        && r == Done(Task(old(nextId), boardId, body.listId.value, body.title.value, body.description,
                          body.deadline, body.attachment, NextPosition(old(tasks), body.listId.value),
                          None, actor))
        && tasks == old(tasks) + [r.body]
        && (io != null ==> io.sent == old(io.sent) + [TaskChanged(boardId, Created, Some(r.body), r.body.id)])
    {
      if body.listId.None? {
        return Fail(BadRequest);
      }
      var listId := body.listId.value;
      var position := NextPosition(tasks, listId);
      if body.title.None? || body.title.value == [] {
        // Task.create fails schema validation: nothing is written
        return Fail(ServerError);
      }
      var task := Task(nextId, boardId, listId, body.title.value, body.description, body.deadline,
                       body.attachment, position, None, actor);
      tasks := tasks + [task];
      nextId := nextId + 1;
      r := Done(task);
      if io != null {
        io.Emit(TaskChanged(boardId, Created, Some(task), task.id));
      }
    }

    /** `getTasks`: the tasks of board `boardId`, grouped by list id in store order. */
    method GetTasks(boardId: Id) returns (grouped: map<Id, seq<Task>>)
      ensures forall l :: l in grouped <==> OfList(OfBoard(tasks, boardId), l) != []
      ensures forall l :: l in grouped ==> grouped[l] == OfList(OfBoard(tasks, boardId), l)
      ensures forall t :: t in tasks && t.boardId == boardId ==> t.listId in grouped && t in grouped[t.listId]
      ensures forall l, t :: l in grouped && t in grouped[l] ==> t.listId == l && t in tasks && t.boardId == boardId
    {
      var found := OfBoard(tasks, boardId);
      grouped := map[];
      var i := 0;
      while i < |found|
        invariant 0 <= i <= |found|
        invariant grouped == Grouped(found[..i])
      {
        var task := found[i];
        assert found[..i + 1][..i] == found[..i];
        if task.listId !in grouped {
          grouped := grouped[task.listId := []];
        }
        grouped := grouped[task.listId := grouped[task.listId] + [task]];
        i := i + 1;
      }
      assert found[..i] == found;
      GroupedByList(found);
      GroupsCoverBoard(tasks, boardId, grouped);
    }

    /** The move part of `updateTask` for the task at index `i`: shift its siblings
        and give the loaded document its new list and position (not saved yet). */
    method MoveTask(i: nat, e: TaskEdit) returns (task: Task)
      requires Valid() && i < |tasks|
      modifies this
      ensures Valid() && nextId == old(nextId)
      ensures tasks == SiblingShifts(old(tasks), i, e)
      ensures task.id == old(tasks)[i].id && EditFields(task, e) == MovedRecord(old(tasks)[i], e)
    {
      task := tasks[i];
      var oldPosition := task.position;
      if e.listId.Some? && e.listId.value != task.listId {
        // close the gap in the source list
        UpdateMany(task.listId, Above(task.position), -1);
        // open one in the destination list
        var insertPosition := if e.position.Some? then e.position.value else 0;
        UpdateMany(e.listId.value, AtLeast(insertPosition), 1);
        task := task.(position := insertPosition, listId := e.listId.value);
      } else if e.position.Some? && e.position.value != task.position {
        var position := e.position.value;
        if position > oldPosition {
          UpdateMany(task.listId, AboveUpTo(oldPosition, position), -1);
        } else {
          UpdateMany(task.listId, FromBelow(position, oldPosition), 1);
        }
        task := task.(position := position);
      }
    }

    /** `updateTask`: move and/or edit the task `taskId` of board `boardId`. */
    method UpdateTask(boardId: Id, taskId: Id, e: TaskEdit, io: Io?) returns (r: Reply<Task>)
      requires Valid()
      modifies this, io
      ensures Valid() && nextId == old(nextId)
      ensures FindTask(old(tasks), taskId, boardId).None? ==>
        r == Fail(NotFound) && tasks == old(tasks) && (io != null ==> io.sent == old(io.sent))
      ensures FindTask(old(tasks), taskId, boardId).Some? ==>
        var i := FindTask(old(tasks), taskId, boardId).value;
        var saved := MovedRecord(old(tasks)[i], e);
        if Saveable(saved) then
          && r == Done(saved)
          && tasks == AfterUpdate(old(tasks), i, e)
          && (io != null ==> io.sent == old(io.sent) + [TaskChanged(boardId, Updated, Some(saved), saved.id)])
        else
          // the sibling shifts are already committed when save fails
          && r == Fail(ServerError)
          && tasks == SiblingShifts(old(tasks), i, e)
          && (io != null ==> io.sent == old(io.sent))
    {
      var found := FindTask(tasks, taskId, boardId);
      if found.None? {
        return Fail(NotFound);
      }
      var i := found.value;
      var task := MoveTask(i, e);
      task := EditFields(task, e);
      if !Saveable(task) {
        return Fail(ServerError);
      }
      Save(i, task);
      r := Done(task);
      if io != null {
        io.Emit(TaskChanged(boardId, Updated, Some(task), task.id));
      }
    }

    /** `deleteTask`: remove the task `taskId` of board `boardId`; its siblings keep their positions. */
    method DeleteTask(boardId: Id, taskId: Id, role: Role, actor: Id, io: Io?) returns (r: Reply<()>)
      requires Valid()
      modifies this, io
      ensures Valid() && nextId == old(nextId)
      ensures r == DeleteReply(old(tasks), boardId, taskId, role, actor)
      ensures FindTask(old(tasks), taskId, boardId).None? ==>
        r == Fail(NotFound) && tasks == old(tasks) && (io != null ==> io.sent == old(io.sent))
      ensures FindTask(old(tasks), taskId, boardId).Some? ==>
        && r == Done(())
        && tasks == AfterDelete(old(tasks), FindTask(old(tasks), taskId, boardId).value)
        && (io != null ==> io.sent == old(io.sent) + [TaskChanged(boardId, Deleted, None, taskId)])
    {
      var found := FindTask(tasks, taskId, boardId);
      if found.None? {
        return Fail(NotFound);
      }
      var i := found.value;
      AfterDeleteKeepsIds(tasks, i, nextId);
      tasks := AfterDelete(tasks, i);
      r := Done(());
      if io != null {
        io.Emit(TaskChanged(boardId, Deleted, None, taskId));
      }
    }

    /** Corrected `deleteTask`: refuse with 403 a caller who is neither an admin
        nor the task's creator, and only then delete. */
    method GuardedDeleteTask(boardId: Id, taskId: Id, role: Role, actor: Id, io: Io?) returns (r: Reply<()>)
      requires Valid()
      modifies this, io
      ensures Valid() && nextId == old(nextId)
      ensures r == GuardedDeleteReply(old(tasks), boardId, taskId, role, actor)
      ensures r.Fail? ==> tasks == old(tasks) && (io != null ==> io.sent == old(io.sent))
      ensures r.Done? ==>
        && tasks == AfterDelete(old(tasks), FindTask(old(tasks), taskId, boardId).value)
        && (io != null ==> io.sent == old(io.sent) + [TaskChanged(boardId, Deleted, None, taskId)])
    {
      var found := FindTask(tasks, taskId, boardId);
      if found.None? {
        return Fail(NotFound);
      }
      var task := tasks[found.value];
      if role != Admin && task.createdBy != actor {
        return Fail(Forbidden);
      }
      r := DeleteTask(boardId, taskId, role, actor, io);
    }
  }
}
